=== FILE: README.md ===
# Hack assembler front end, modelled in Dafny

This project models the unfinished front end of an assembler for the Hack
assembly language (the Nand2Tetris computer of *The Elements of Computing
Systems*, chapter 6). It covers three parts of the TypeScript code, each
as the code is written:

- **Source normalisation and the initial state** (`state.ts`).
  - `splitSourceLines` turns every `\r\n` and every lone `\r` into `\n`,
    then splits at `\n`.
  - `createInitialState` seeds the 23 built-in symbols and starts the
    variable allocator at 16.
  - `createError` builds the position-annotated error message with its
    caret line.
- **The instruction-kind state machine** (`parse.ts`).
  - One step classifies the character under the cursor. An undefined
    character (past the end of the line) or a finished state counts as
    the end of the line.
  - It then runs the handler for the pair (kind of the instruction in
    progress, character class). A handler edits the instruction in
    progress, emits an A instruction, binds a label, or throws.
  - `Parse.Step` is this step as a pure function from a state to the next
    state or the error.
- **The older driver** (`assemble.ts`).
  - A cursor walks the lines, and a classifier rejects unknown
    characters.
  - A table of handlers is there, but every handler returns `{}`.
  - A loop with a runaway guard drives it. `AssembleDriver.Assemble` is
    this loop, proved to terminate.

Modules, in dependency order:

- `Wrappers` (wrappers.dfy): `Option` and `Result`.
- `Text` (text.dfy): the JavaScript character classes `\s`, `\d` and
  `[a-zA-Z]`, decimal rendering of numbers, `parseInt` on digit strings,
  and `trim`.
- `SourceLines` (source_lines.dfy): `splitSourceLines`. state.ts and
  assemble.ts define it identically.
- `AsmState` (state.dfy): the data of state.ts, with `createInitialState`
  and `createError`.
- `Parse` (parse.dfy): the state machine of parse.ts.
- `ParseProperties` (parse_properties.dfy): lemmas about the machine's
  steps for each kind of instruction in progress, and an invariant of
  every state reachable from the initial state. In the C kind the rules
  for digits, the letters `A`, `D`, `M` and `;` are covered only through
  that invariant and the rejections it implies.
- `AssembleDriver` (assemble.dfy): the driver of assemble.ts.

Where the code does something its own design does not intend, the model
follows the code:

- An unknown symbol in an A instruction gets a fresh address every time
  it is referenced. The address is never recorded under the symbol's name.
- `createCInstruction` only tests its unanchored pattern and emits
  nothing. So a `/` in a C instruction always ends in an error.
- `;` is checked but never stored, and `=` is an unexpected character in
  a C instruction. So no jump or destination can be written.
- An A operand that starts with a digit is rejected. So every A
  instruction the machine emits carries a symbol.
- White space right after `@` is ignored, so `@ foo` loads `foo`.
  Only white space after a non-empty operand ends the A instruction.
- A `//` right after an A operand opens a comment and throws the operand
  away, so nothing is emitted for it.
- Between instructions a `/` is accepted only as part of `//`. So the `/`
  of a block-comment opener is rejected before its `*` is read.
- Inside a block comment a `/` not preceded by `*` is dropped from the
  comment text.
- The driver of assemble.ts moves its cursor before its first `parse`.
  So it never examines the very first character of the source.

## Model

| member | source | states |
|---|---|---|
| SourceLines.NormalizeLineEndings | src/n2tAssembler/state.ts:52-53 | the line-ending replacement leaves no `\r` in the text, leaves text without `\r` unchanged, and never lengthens it |
| SourceLines.JoinSplit | src/n2tAssembler/state.ts:53 | joining the pieces of `split("\n")` with `\n` restores the text |
| SourceLines.SplitJoin | src/n2tAssembler/state.ts:53 | splitting the `\n`-join of lines that hold no `\n` gives those lines back |
| SourceLines.SplitSourceLines | src/n2tAssembler/state.ts:52-53 | there is at least one line (the empty source gives one empty line), no line holds `\n` or `\r`, and the lines joined with `\n` are the source with every `\r\n` and lone `\r` made `\n` |
| SourceLines.SplitSourceLinesOfJoin | src/n2tAssembler/assemble.ts:156-157 | lines free of break characters, once joined, are split back into exactly those lines, so splitting loses only the line endings |
| Text.DecimalRoundTrip | src/n2tAssembler/parse.ts:62-66 | `parseInt` of the decimal rendering of a number is that number |
| Text.CanonicalDigitsRoundTrip | src/n2tAssembler/parse.ts:62-66 | a digit string without a redundant leading zero is the rendering of its own `parseInt` value |
| Text.Trim | src/n2tAssembler/parse.ts:265-289 | the name a label gets is the slice left after removing all leading and all trailing white space, and it neither starts nor ends with white space |
| AsmState.BuiltInSymbols | src/n2tAssembler/state.ts:59-153 | the seed table has exactly 23 entries, all built in: R0..R15 at 0..15, SCREEN at 16384, KBD at 24576, SP, LCL, ARG, THIS, THAT at 0..4, and every entry but the two devices lies below the first variable address 16 |
| AsmState.CreateInitialState | src/n2tAssembler/state.ts:55-166 | the lines are the split source, the cursor is at line 0 position 0 and not finished, nothing is emitted, only the built-in symbols are known, the allocator is at 16, and both the current and the previous instruction are the empty `null` one |
| AsmState.CreateError | src/n2tAssembler/state.ts:168-180 | the result is always a thrown error, and its last line is a caret preceded by the `Source: ` label's width of spaces plus exactly `position` spaces |
| SourceLines.SplitThree | src/n2tAssembler/state.ts:53 | a text ending in two break-free lines splits into the pieces of its head followed by those two lines |
| AsmState.CreateErrorLayout | src/n2tAssembler/state.ts:168-180 | for any message, the text splits into the header's own lines (which join back to the header with the 1-based line and the raw position), then `Source: ` with the source line, then the caret line, whose caret sits under the offending character of the line above; a message without a line break gives exactly three lines |
| Parse.Illegal | src/n2tAssembler/parse.ts:15-24 | an illegal character always throws a message error, never the missing-handler outcome |
| Parse.DefaultIllegal | src/n2tAssembler/parse.ts:26 | the default rejection always throws a message error |
| Parse.Classify | src/n2tAssembler/parse.ts:443-489 | an undefined character or a finished state goes to `newLine`; otherwise each of the twelve classes is characterised independently, so every character has exactly one class, following the test order `\n`, `@`, `=`, `+`/`-`, white space, digit, letter, `/`, `;`, paren, `*`, other |
| Parse.AddToInstructionValue | src/n2tAssembler/parse.ts:57-59 | the text in progress is extended by the character at its end, and nothing else changes |
| Parse.DetectComment | src/n2tAssembler/parse.ts:28-40 | succeeds iff the character is `/` with a `/` next to it, then holding an empty line comment; otherwise the default unexpected-character error |
| Parse.FinalizeInstruction | src/n2tAssembler/parse.ts:42-55 | the next instruction starts empty, of kind `nullAwaitingNewLine` iff a new line is required and `null` otherwise; the previous instruction becomes the empty `null` one; nothing else changes |
| Parse.CreateAInstruction | src/n2tAssembler/parse.ts:61-92 | exactly one A instruction is appended and the earlier ones are kept; the symbol table never changes; an all-digit operand gives its decimal value with no metadata, a known symbol its address marked not initial, both leaving the allocator alone; an unknown symbol gets the allocator's address marked initial and moves the allocator on by exactly one |
| Parse.CreateCInstruction | src/n2tAssembler/parse.ts:94-121 | fails iff the text holds none of `A`, `D`, `M`, `0`, `1`, with the message naming the 1-based line and the text; on success the state is unchanged |
| Parse.OnNull | src/n2tAssembler/parse.ts:141-187 | between instructions a step never moves the cursor and never touches the result |
| Parse.OnNullAwaitingNewLine | src/n2tAssembler/parse.ts:188-206 | after a label a step never moves the cursor and never touches the result |
| Parse.OnComment | src/n2tAssembler/parse.ts:207-227 | inside a line comment a step never moves the cursor and never touches the result |
| Parse.OnMultilineComment | src/n2tAssembler/parse.ts:228-249 | inside a block comment a step never moves the cursor and never touches the result |
| Parse.OnLabel | src/n2tAssembler/parse.ts:250-292 | inside a label a step never moves the cursor and never emits an instruction; at most the label's symbol is added |
| Parse.OnA | src/n2tAssembler/parse.ts:293-327 | inside an A operand a step never moves the cursor; it either leaves the result alone or emits the operand and starts afresh, and it emits only on white space or the end of the line after a non-empty operand |
| Parse.OnC | src/n2tAssembler/parse.ts:328-431 | inside a C instruction a step never moves the cursor and never touches the result: C instructions are checked but never emitted |
| Parse.Step | src/n2tAssembler/parse.ts:141-431 | a step of any handler never moves the cursor and only grows the result: earlier instructions and symbols are kept, and at most one instruction and one symbol are added |
| Parse.ParseAt | src/n2tAssembler/parse.ts:434-444 | a step on the character under the cursor never moves the cursor and only grows the result; past the end of its line the character and the next one are undefined, so the end-of-line handler runs |
| SourceLines.SplitAppend | src/n2tAssembler/state.ts:53 | the pieces of `x`, a `\n`, then `y` are the pieces of `x` followed by those of `y` |
| ParseProperties.FreshReferencesGetSuccessiveAddresses | src/n2tAssembler/parse.ts:78-90 | two references to unknown symbols get the allocator's address and the next one, even when both name the same symbol, and the symbol table is left as it was |
| ParseProperties.NumericOperand | src/n2tAssembler/parse.ts:62-68 | an operand that is the decimal rendering of `n` loads `n` with no metadata and changes neither symbols nor the allocator |
| ParseProperties.CanonicalOperand | src/n2tAssembler/parse.ts:62-68 | an all-digit operand without a redundant leading zero loads, with no metadata, the number whose decimal rendering is the operand itself |
| ParseProperties.LabelClose | src/n2tAssembler/parse.ts:265-289 | `)` binds an unknown trimmed name to the count of emitted instructions, emits nothing and awaits a new line; a known name throws "Cannot redefine built-in label" when it is built in and "Duplicate label" otherwise |
| ParseProperties.LabelRejectsOpeningParen | src/n2tAssembler/parse.ts:265-289 | `(` inside a label throws "missing )" |
| ParseProperties.LabelThenReference | src/n2tAssembler/parse.ts:61-77 | after a label is bound, a reference to it loads the label's address, which is the index the next emitted instruction will have, and the allocator is untouched |
| ParseProperties.LabelRejectsLeadingDigit | src/n2tAssembler/parse.ts:255-260 | a digit as the first character of a label is rejected |
| ParseProperties.LabelRejectsLineEndAndSlash | src/n2tAssembler/parse.ts:253-254 | the end of the line and `/` inside a label are rejected as an unterminated label |
| ParseProperties.ARejectsLeadingDigit | src/n2tAssembler/parse.ts:314-319 | a digit as the first character of an A operand is rejected |
| ParseProperties.ARejectsEmptyOperand | src/n2tAssembler/parse.ts:302-309 | the end of the line right after `@` is rejected as an empty A instruction |
| ParseProperties.AwaitingNewLineAcceptsOnly | src/n2tAssembler/parse.ts:188-206 | after a label a step succeeds iff the character is white space, the end of the line, or a `/` of a `//`; the end of the line returns to `null`, and every other class gets the default error |
| ParseProperties.NullStarts | src/n2tAssembler/parse.ts:141-187 | between instructions `@` starts an empty A operand, either paren an empty label, `0`/`1`/`A`/`M`/`D` a C instruction holding that character; white space, other letters and a `*` not after `/` change nothing; `*` after `/` opens a block comment |
| ParseProperties.NullAcceptsOnly | src/n2tAssembler/parse.ts:141-187 | between instructions a step succeeds iff the character is `@`, a paren, `0`, `1`, `*`, white space, a letter, or a `/` of a `//` (which opens a line comment); every failure is the default error, so a `/` followed by `*` is rejected |
| ParseProperties.MultilineCommentSteps | src/n2tAssembler/parse.ts:228-249 | inside a block comment `/` after `*` closes it back to `null`, any other `/` changes nothing, and every other step appends to the comment text; at the end of a line that is the text `undefined` rather than a line break, so the `\n` test on closing never sees a break in lines from `splitSourceLines` |
| ParseProperties.ACommentDropsOperand | src/n2tAssembler/parse.ts:313 | a `//` right after an A operand opens a line comment and discards the operand, emitting nothing |
| ParseProperties.ASpaceSkipsOrEmits | src/n2tAssembler/parse.ts:294-301 | white space right after `@` changes nothing; after a non-empty operand it emits the operand and returns to `null` |
| ParseProperties.AAppendsOrRejects | src/n2tAssembler/parse.ts:310-327 | in an A operand a letter, or a digit after the first character, is appended; every character that is not white space, a digit, a letter or the `/` of a `//` gets the default error |
| ParseProperties.LabelAppendsOrRejects | src/n2tAssembler/parse.ts:250-264 | inside a label white space changes nothing, a letter, or a digit after the first character, is appended, and every character that is not white space, a digit, a letter, `/` or a paren gets the default error |
| ParseProperties.CSpaceAndLineEnd | src/n2tAssembler/parse.ts:328-335 | white space in a C instruction changes nothing; in a reachable state the end of the line always succeeds, emits nothing and returns to `null` |
| ParseProperties.LabelNameIsGatheredText | src/n2tAssembler/parse.ts:265-267 | in a reachable state the trimmed label name is exactly the text gathered since `(` |
| ParseProperties.InitialStateConsistent | src/n2tAssembler/state.ts:154-165 | the initial state satisfies the reachable-state invariant |
| ParseProperties.StepPreservesConsistent | src/n2tAssembler/parse.ts:42-55 | every successful step keeps the invariant: the previous instruction stays the empty `null` one, the `null` kinds hold no text, A operands and label names are symbol texts, and C text is a non-empty run of `A`, `D`, `M`, `0`, `1` |
| ParseProperties.CommentEndReturnsToNull | src/n2tAssembler/parse.ts:209-215 | in a reachable state the end of a line comment always returns to `null`, never to `nullAwaitingNewLine` |
| ParseProperties.CSlashNeverSucceeds | src/n2tAssembler/parse.ts:363-369 | a `/` in a C instruction always ends in an error: an invalid C instruction with empty text when it starts a comment, the default error otherwise |
| ParseProperties.CJumpLettersRejected | src/n2tAssembler/parse.ts:386-427 | in a reachable state no `;` is ever stored, so each of `J`, `G`, `E`, `T`, `L` is rejected in a C instruction |
| ParseProperties.IllegalMessage | src/n2tAssembler/parse.ts:15-24 | the error text starts with `Error: Unexpected character`, the character's text, then `(extra)` exactly when the extra message is non-empty, then the ` (line ` of the cursor |
| ParseProperties.HeaderPrefix | src/n2tAssembler/state.ts:168-179 | every error text starts with `Error: `, the message and ` (line ` |
| ParseProperties.DefaultIllegalMessage | src/n2tAssembler/parse.ts:26 | the default error text is `Error: Unexpected character `, the character (or `undefined`), then directly ` (line ` |
| ParseProperties.NullLineEnd | src/n2tAssembler/parse.ts:142-143 | between instructions, the end of a line, an undefined character or a finished cursor leaves the state as it is |
| ParseProperties.CRejectsOthers | src/n2tAssembler/parse.ts:335-430 | in a C instruction `@`, parens, `*`, characters of no other class and letters outside `ADMJGETL` give the default error, and `+`/`-` reach the handler that does not parse |
| ParseProperties.CRejectsEquals | src/n2tAssembler/parse.ts:336 | `=` in a C instruction is the default unexpected-character error |
| ParseProperties.OnlyAEmits | src/n2tAssembler/parse.ts:141-292 | in every kind other than `A` a successful step leaves the instruction list as it was |
| ParseProperties.EmittedOperandsAreSymbols | src/n2tAssembler/parse.ts:61-77 | in a reachable state every A instruction a step emits carries a symbol, because an all-digit operand cannot be reached |
| ParseProperties.ParseAtLineEnd | src/n2tAssembler/parse.ts:434-444 | past the end of its line the cursor reads an undefined character: a pending A operand is emitted, an empty one is rejected, and a line comment is closed back to `null` |
| AssembleDriver.Apply | src/n2tAssembler/assemble.ts:240 | the store's `set` with `{}` leaves the state as it was, and a partial state without a result keeps the result |
| AssembleDriver.ExpectedLoopCount | src/n2tAssembler/assemble.ts:245-248 | the guard's bound exceeds the total number of cursor steps |
| AssembleDriver.IncrementPosition | src/n2tAssembler/assemble.ts:218-239 | a finished cursor stays put; otherwise it moves one character right within its line, or from the line's last step to position 0 of the next line, or on the last line finishes where it stands; the cursor stays valid and the number of moves left drops by exactly one |
| AssembleDriver.Handler | src/n2tAssembler/assemble.ts:60-154 | every entry of the handler table returns an update that leaves any state as it was |
| AssembleDriver.UnexpectedMessage | src/n2tAssembler/assemble.ts:50-58 | the message starts with `Unexpected character ` followed by the character itself |
| AssembleDriver.OldClassify | src/n2tAssembler/assemble.ts:180-198 | each class is characterised on its own, and a character is unexpected iff it is not white space, a digit, an ASCII letter or one of `/ ; ( ) *` |
| AssembleDriver.ParseOld | src/n2tAssembler/assemble.ts:168-201 | fails iff the cursor is unfinished, on a character, and that character has no class, with the message naming the character, the 0-based line and the position; on success the result is not touched |
| AssembleDriver.NextCovers | src/n2tAssembler/assemble.ts:227-236 | one move of the cursor passes over exactly one place: the characters after the old cursor are the one under the new cursor and those after it, and none remain once the move finishes |
| AssembleDriver.AcceptedFromIff | src/n2tAssembler/assemble.ts:218-239 | moving the cursor to the end lands on exactly the characters after it, so the walk succeeds iff each of them has a class |
| AssembleDriver.Assemble | src/n2tAssembler/assemble.ts:245-279 | succeeds iff every character after the first has a class; on success the result is the empty `{label, memory}` result after exactly one iteration per line step, so the runaway guard never fires; on failure the message names the first character after the first one that has no class, with its 0-based line and position |

## Left out

- Logging (`logger.ts`) only writes to the console, and the assembler
  silences it. Its calls are left out.
- `curry.ts` only adapts the argument passing of `throwIllegal`. The model
  calls `Parse.Illegal` with all its arguments at once.
- The type-only files (`src/lib/types*`) have no behaviour.
- The demo code under `codeExamples` is not part of the assembler.
- The zustand store and lodash `merge` of assemble.ts are left out. The
  store's `set` is a plain record update (`AssembleDriver.Apply`), and
  `updateResult` is never called.
- The C-state `+`/`-` handler (parse.ts lines 337-362) does not parse as
  written. A step that would call it returns `OperatorHandlerMissing`.
- Opcode decoding and binary encoding of C instructions do not exist in
  the code, so they are not modelled.
- `parse.ts` has no driver loop, so only its single step `Parse.ParseAt`
  is modelled.
- The `ErrorType` parameter of `throwError` in assemble.ts is left out:
  the driver always throws a plain `Error`, whose message is
  `AssembleDriver.UnexpectedMessage`.
- The `console.warn` of `incrementPosition` on a finished cursor is left
  out. It has no effect on the state.
- Symbol tables are plain JavaScript objects. Names that hit
  `Object.prototype` keys such as `constructor` are not modelled: the map
  holds only the keys that are explicitly set.
- JavaScript strings are UTF-16. Characters outside the Basic
  Multilingual Plane (surrogate pairs) are one `char` here, so `length`
  and indexing agree with the source only within that plane.
- Parse.CreateAInstruction: an all-digit operand's value is its exact
  decimal value. JavaScript's `parseInt` loses precision above 2^53, and
  the model does not.
- Parse.Step: the postcondition only says the cursor is unchanged and
  the result only grows. The lemmas of `ParseProperties` state the
  handlers of the `null` kind (its end of line included),
  `nullAwaitingNewLine`, `multilineComment`, label and A kinds, the end
  of a line comment, and in the C kind white space, the end of the line,
  `/`, `=`, `@`, parens, `*`, other characters, `+`/`-`, letters outside
  the C mnemonics and the jump letters. The other C-state rules for
  digits, `A`, `D`, `M` and `;` are stated only through the invariant
  `Consistent`, and the text a line comment gathers is not described.
- Parse.ParseAt: it requires the cursor line to exist. On a missing line
  the source fails with a `TypeError` when it reads `lines[line][position]`,
  and nothing in parse.ts calls it that way.
- Where the Hack assembler as chapter 6 of *The Elements of Computing
  Systems* specifies intended behaviour that the code does not have, the
  model follows the code. Examples are recording an unknown symbol with
  its fresh address, and translating C instructions.

=== FILE: assemble.dfy ===
/** The older driver of assemble.ts: a cursor that walks the source one
    character at a time, a character classifier that only rejects what it
    does not know, a handler table whose every entry changes nothing, and
    a loop guarded against running away. */
module AssembleDriver {
  import opened Wrappers
  import opened Text
  import opened SourceLines
  import opened AsmState

  /** A symbol of this driver: only an address. */
  datatype OldSymbol = OldSymbol(address: nat)

  datatype OldInstruction = OldInstruction(kind: MachineKind, value: int)

  /** Labels and memory symbols kept apart, each name with a list of
      symbols. */
  datatype OldResult = OldResult(
    labels: map<string, seq<OldSymbol>>,
    memory: map<string, seq<OldSymbol>>,
    instructions: seq<OldInstruction>)

  const EmptyResult := OldResult(map[], map[], [])

  datatype PartType =
    | Whitespace | CommentPart | MultilineCommentPart | APart
    | CABit | CComp | CDestination | CJump

  datatype CurrentPart = CurrentPart(partType: PartType, value: string)

  datatype OldState = OldState(
    line: nat,
    position: nat,
    result: OldResult,
    currentInstruction: CurrentPart,
    isFinished: bool)

  /** `Partial<AssemblerState>`: the fields a handler chooses to set. */
  datatype StateUpdate = StateUpdate(
    line: Option<nat>,
    position: Option<nat>,
    result: Option<OldResult>,
    currentInstruction: Option<CurrentPart>,
    isFinished: Option<bool>)

  const NoChange := StateUpdate(None, None, None, None, None)

  /** The store's `set`: the fields present in the update replace the
      state's own. */
  function Apply(u: StateUpdate, s: OldState): (r: OldState)
    ensures u == NoChange ==> r == s
    ensures u.result.None? ==> r.result == s.result
  {
    OldState(
      if u.line.Some? then u.line.value else s.line,
      if u.position.Some? then u.position.value else s.position,
      if u.result.Some? then u.result.value else s.result,
      if u.currentInstruction.Some? then u.currentInstruction.value else s.currentInstruction,
      if u.isFinished.Some? then u.isFinished.value else s.isFinished)
  }

  const InitialState := OldState(0, 0, EmptyResult, CurrentPart(Whitespace, ""), false)

  /** The number of steps a line takes the cursor: its length, and one for
      an empty line (`line.length || 1`). */
  function Width(l: string): (w: nat)
    ensures w >= 1 && w >= |l|
  {
    if |l| == 0 then 1 else |l|
  }

  function SumWidths(ls: seq<string>): nat {
    if |ls| == 0 then 0 else Width(ls[0]) + SumWidths(ls[1..])
  }

  /** `expectedLoopCount`: the widths added up, starting from one. */
  function ExpectedLoopCount(lines: seq<string>): (n: nat)
    ensures n > SumWidths(lines)
  {
    1 + SumWidths(lines)
  }

  /** The cursor is on an existing line and, unless finished, at one of
      its steps. */
  predicate ValidCursor(lines: seq<string>, s: OldState) {
    s.line < |lines| && (s.isFinished || s.position < Width(lines[s.line]))
  }

  /** The number of cursor moves left before the driver finishes. */
  function Remaining(lines: seq<string>, s: OldState): nat
    requires ValidCursor(lines, s)
  {
    if s.isFinished then 0
    else Width(lines[s.line]) - s.position + SumWidths(lines[s.line + 1..])
  }

  /** `incrementPosition`: a finished cursor stays put; at the last step of
      a line the cursor moves to the start of the next line, or finishes on
      the last line; otherwise it moves one character to the right. Every
      move brings the end one step closer. */
  function IncrementPosition(lines: seq<string>, s: OldState): (r: OldState)
    requires ValidCursor(lines, s)
    ensures ValidCursor(lines, r)
    ensures s.isFinished ==> r == s
    ensures !s.isFinished ==> Remaining(lines, r) == Remaining(lines, s) - 1
    ensures r.result == s.result && r.currentInstruction == s.currentInstruction
    ensures !s.isFinished && s.position < |lines[s.line]| - 1 ==>
      !r.isFinished && r.line == s.line && r.position == s.position + 1
    ensures !s.isFinished && s.position >= |lines[s.line]| - 1 && s.line < |lines| - 1 ==>
      !r.isFinished && r.line == s.line + 1 && r.position == 0
    ensures !s.isFinished && s.position >= |lines[s.line]| - 1 && s.line == |lines| - 1 ==>
      r.isFinished && r.line == s.line && r.position == s.position
  {
    if s.isFinished then s
    else if s.position >= |lines[s.line]| - 1 then
      if s.line == |lines| - 1 then
        assert lines[s.line + 1..] == [];
        s.(isFinished := true)
      else
        var r := s.(line := s.line + 1, position := 0);
        assert lines[s.line + 1..][1..] == lines[s.line + 2..];
        r
    else
      s.(position := s.position + 1)
  }

  /** The character classes the driver's `parse` tells apart. */
  datatype OldClass = NewLine | Space | Digit | Alpha | Backslash | Semicolon | Paren | Star

  /** The classifier of assemble.ts, in its order of tests; anything else
      is unexpected. */
  function OldClassify(c: char): (r: Option<OldClass>)
    ensures r == Some(NewLine) <==> c == '\n'
    ensures r == Some(Space) <==> c != '\n' && IsSpace(c)
    ensures r == Some(Digit) <==> IsDigit(c)
    ensures r == Some(Alpha) <==> IsAsciiLetter(c)
    ensures r == Some(Backslash) <==> c == '/'
    ensures r == Some(Semicolon) <==> c == ';'
    ensures r == Some(Paren) <==> c == '(' || c == ')'
    ensures r == Some(Star) <==> c == '*'
    ensures r.None? <==> !(IsSpace(c) || IsDigit(c) || IsAsciiLetter(c) || c in "/;()*")
  {
    if c == '\n' then Some(NewLine)
    else if IsSpace(c) then Some(Space)
    else if IsDigit(c) then Some(Digit)
    else if IsAsciiLetter(c) then Some(Alpha)
    else if c == '/' then Some(Backslash)
    else if c == ';' then Some(Semicolon)
    else if c == '(' || c == ')' then Some(Paren)
    else if c == '*' then Some(Star)
    else None
  }

  /** `HANDLERS[partType][class]`: every entry of the table returns `{}`. */
  function Handler(part: PartType, cls: OldClass): (u: StateUpdate)
    ensures forall s :: Apply(u, s) == s
  {
    NoChange
  }

  /** The driver's `throwError`: the message, then the 0-based line and the
      position. */
  function UnexpectedMessage(c: char, line: nat, position: nat): (m: string)
    ensures |m| > 21 && m[..21] == "Unexpected character " && m[21] == c
  {
    "Unexpected character " + [c] + " (line " + NatToString(line) + " position "
      + NatToString(position) + ")"
  }

  /** The driver's `parse`: nothing to do once finished or past the end of
      the line; otherwise the handler for the character's class, and an
      error for a character of no class. */
  function ParseOld(lines: seq<string>, s: OldState): (r: Result<StateUpdate, string>)
    requires s.line < |lines|
    ensures r.Failure? <==>
      !s.isFinished && s.position < |lines[s.line]| && OldClassify(lines[s.line][s.position]).None?
    ensures r.Success? ==> r.value.result.None?
    ensures r.Failure? ==>
      r.error == UnexpectedMessage(lines[s.line][s.position], s.line, s.position)
  {
    if s.isFinished || s.position >= |lines[s.line]| then Success(NoChange)
    else
      var c := lines[s.line][s.position];
      match OldClassify(c)
      case None => Failure(UnexpectedMessage(c, s.line, s.position))
      case Some(cls) => Success(Handler(s.currentInstruction.partType, cls))
  }

  /** Position `(i, j)` is a character of the text read after the cursor. */
  predicate After(lines: seq<string>, s: OldState, i: int, j: int) {
    && 0 <= i < |lines| && 0 <= j < |lines[i]|
    && ((i == s.line && j > s.position) || i > s.line)
  }

  /** Every character after the cursor has a class. */
  ghost predicate AllAfterAccepted(lines: seq<string>, s: OldState) {
    s.isFinished ||
    forall i, j :: After(lines, s, i, j) ==> OldClassify(lines[i][j]).Some?
  }

  /** The driver accepts every character from the cursor to the end: each
      move lands on a character `parse` does not reject. */
  ghost function AcceptedFrom(lines: seq<string>, s: OldState): bool
    requires ValidCursor(lines, s)
    decreases Remaining(lines, s)
  {
    if s.isFinished then true
    else
      var n := IncrementPosition(lines, s);
      ParseOld(lines, n).Success? && AcceptedFrom(lines, n)
  }

  /** Walking the cursor to the end visits exactly the characters after
      it, so the walk succeeds iff each of them has a class. */
  lemma {:induction false} AcceptedFromIff(lines: seq<string>, s: OldState)
    requires ValidCursor(lines, s)
    ensures AcceptedFrom(lines, s) <==> AllAfterAccepted(lines, s)
    decreases Remaining(lines, s)
  {
    if !s.isFinished {
      var n := IncrementPosition(lines, s);
      AcceptedFromIff(lines, n);
      NextCovers(lines, s);
      if !n.isFinished && n.position < |lines[n.line]| {
        assert After(lines, s, n.line, n.position);
      }
    }
  }

  /** `(i, j)` comes strictly before `(k, l)` in reading order. */
  predicate Precedes(i: int, j: int, k: int, l: int) {
    i < k || (i == k && j < l)
  }

  /** One move of the cursor passes over exactly one place: the characters
      after the old cursor are the one under the new cursor and those after
      it, and there are none once the move finishes. */
  lemma NextCovers(lines: seq<string>, s: OldState)
    requires ValidCursor(lines, s) && !s.isFinished
    ensures var n := IncrementPosition(lines, s);
      && (forall i, j :: After(lines, s, i, j) ==>
            !n.isFinished && (After(lines, n, i, j) || (i == n.line && j == n.position)))
      && (forall i, j :: After(lines, n, i, j) ==> After(lines, s, i, j))
  {
  }

  /** `(i, j)` is the first character after the very first one that has no
      class: the one the driver's `parse` throws on. */
  ghost predicate FirstRejected(lines: seq<string>, i: int, j: int) {
    && After(lines, InitialState, i, j)
    && OldClassify(lines[i][j]).None?
    && forall k, l :: After(lines, InitialState, k, l) && Precedes(k, l, i, j) ==>
         OldClassify(lines[k][l]).Some?
  }

  /** The cursor has only moved forward from the initial one, and every
      place it has passed over has a class. */
  ghost predicate PassedAccepted(lines: seq<string>, s: OldState) {
    && (forall i, j :: After(lines, s, i, j) ==> After(lines, InitialState, i, j))
    && forall i, j :: After(lines, InitialState, i, j) && !After(lines, s, i, j) ==>
         OldClassify(lines[i][j]).Some?
  }

  /** A move onto a character `parse` accepts keeps every passed place
      accepted. */
  lemma AcceptedMoveKeepsPassed(lines: seq<string>, s: OldState)
    requires ValidCursor(lines, s) && !s.isFinished && PassedAccepted(lines, s)
    requires ParseOld(lines, IncrementPosition(lines, s)).Success?
    ensures PassedAccepted(lines, IncrementPosition(lines, s))
  {
    NextCovers(lines, s);
  }

  /** A move onto a character `parse` rejects lands on the first character
      after the initial cursor that has no class. */
  lemma RejectedMoveIsFirst(lines: seq<string>, s: OldState)
    requires ValidCursor(lines, s) && !s.isFinished && PassedAccepted(lines, s)
    requires ParseOld(lines, IncrementPosition(lines, s)).Failure?
    ensures var n := IncrementPosition(lines, s);
      FirstRejected(lines, n.line, n.position)
  {
    NextCovers(lines, s);
    var n := IncrementPosition(lines, s);
    assert After(lines, s, n.line, n.position);
    forall k, l | After(lines, InitialState, k, l) && Precedes(k, l, n.line, n.position)
      ensures OldClassify(lines[k][l]).Some?
    {
      assert !After(lines, s, k, l);
    }
  }

  /** `assemble`: walk the whole source, moving the cursor before each
      `parse`. It returns the store's result, which no handler ever sets,
      after one iteration per step of every line; it fails iff some
      character after the very first one has no class, with that
      character's message. The first character is never examined, because
      the cursor moves before the first `parse`. The runaway guard never
      fires. */
  method Assemble(source: string) returns (r: Result<OldResult, string>, iterations: nat)
    ensures var lines := SplitSourceLines(source);
      r.Success? <==> AllAfterAccepted(lines, InitialState)
    ensures r.Success? ==> r.value == EmptyResult
    ensures r.Success? ==> iterations == SumWidths(SplitSourceLines(source))
    ensures r.Failure? ==> exists i, j ::
      var lines := SplitSourceLines(source);
      && FirstRejected(lines, i, j)
      && r.error == UnexpectedMessage(lines[i][j], i, j)
  {
    var lines := SplitSourceLines(source);
    var expectedLoopCount := ExpectedLoopCount(lines);
    var state := InitialState;
    assert lines[1..] == lines[0 + 1..];
    var loopCount: nat := 0;
    var isFinished := false;
    while !isFinished
      invariant ValidCursor(lines, state)
      invariant isFinished == state.isFinished
      invariant loopCount + Remaining(lines, state) == SumWidths(lines)
      invariant state.result == EmptyResult
      invariant AcceptedFrom(lines, InitialState) <==> AcceptedFrom(lines, state)
      invariant PassedAccepted(lines, state)
      decreases Remaining(lines, state)
    {
      if loopCount > expectedLoopCount {
        r := Failure("Loop count exceeded expected loop count " + NatToString(expectedLoopCount));
        iterations := loopCount;
        return;
      }
      var before := state;
      state := IncrementPosition(lines, state);
      var p := ParseOld(lines, state);
      if p.Failure? {
        RejectedMoveIsFirst(lines, before);
        AcceptedFromIff(lines, InitialState);
        r := Failure(p.error);
        iterations := loopCount;
        return;
      }
      AcceptedMoveKeepsPassed(lines, before);
      state := Apply(p.value, state);
      isFinished := state.isFinished;
      loopCount := loopCount + 1;
    }
    AcceptedFromIff(lines, InitialState);
    r := Success(state.result);
    iterations := loopCount;
  }
}

=== FILE: parse.dfy ===
/** The character-driven state machine of parse.ts, as the code is written:
    one step classifies a character, then runs the handler for the pair
    (kind of the instruction in progress, character class). A handler edits
    the instruction in progress, emits an A instruction, binds a label, or
    throws; here it returns the next state or the error. */
module Parse {
  import opened Wrappers
  import opened Text
  import opened AsmState

  /** The handler names of `HANDLERS`; `Slash` is the one the source calls
      `backslash`, which is selected by `/`. */
  datatype CharClass =
    | NewLine | At | Equal | Operator | Space | Digit | Alpha
    | Slash | Semicolon | Paren | Star | Other

  type Outcome = Result<AssemblerState, AsmError>

  /** The characters the classifier names one by one. */
  const Punctuation := "@=+-/;()*"

  /** The classification at the head of `parse`: the end of the line (an
      undefined character) and a finished state both go to `newLine`;
      otherwise the tests run in a fixed order. Each class is characterised
      on its own below, so the order only matters for `\n`, which is also a
      space. */
  function Classify(ch: Option<char>, isFinished: bool): (cls: CharClass)
    ensures cls == NewLine <==> isFinished || ch.None? || ch == Some('\n')
    ensures cls == At <==> !isFinished && ch == Some('@')
    ensures cls == Equal <==> !isFinished && ch == Some('=')
    ensures cls == Operator <==> !isFinished && (ch == Some('+') || ch == Some('-'))
    ensures cls == Space <==> !isFinished && ch.Some? && ch.value != '\n' && IsSpace(ch.value)
    ensures cls == Digit <==> !isFinished && ch.Some? && IsDigit(ch.value)
    ensures cls == Alpha <==> !isFinished && ch.Some? && IsAsciiLetter(ch.value)
    ensures cls == Slash <==> !isFinished && ch == Some('/')
    ensures cls == Semicolon <==> !isFinished && ch == Some(';')
    ensures cls == Paren <==> !isFinished && (ch == Some('(') || ch == Some(')'))
    ensures cls == Star <==> !isFinished && ch == Some('*')
    ensures cls == Other <==>
      && !isFinished && ch.Some? && ch.value !in Punctuation
      && !IsSpace(ch.value) && !IsDigit(ch.value) && !IsAsciiLetter(ch.value)
  {
    if isFinished || ch.None? then NewLine
    else
      var c := ch.value;
      if c == '\n' then NewLine
      else if c == '@' then At
      else if c == '=' then Equal
      else if c == '+' || c == '-' then Operator
      else if IsSpace(c) then Space
      else if IsDigit(c) then Digit
      else if IsAsciiLetter(c) then Alpha
      else if c == '/' then Slash
      else if c == ';' then Semicolon
      else if c == '(' || c == ')' then Paren
      else if c == '*' then Star
      else Other
  }

  /** A character as a template literal prints it; an undefined one prints
      as the word `undefined`. */
  function CharText(ch: Option<char>): string {
    if ch.Some? then [ch.value] else "undefined"
  }

  /** `throwIllegal(extraMessage, state, char)` */
  function Illegal(extra: string, s: AssemblerState, charText: string): (e: AsmError)
    ensures e.Thrown?
  {
    CreateError(
      "Unexpected character " + charText + (if extra == "" then "" else "(" + extra + ")"),
      s)
  }

  /** `throwDefaultIllegal(state, char)` */
  function DefaultIllegal(s: AssemblerState, ch: Option<char>): (e: AsmError)
    ensures e.Thrown?
  {
    Illegal("", s, CharText(ch))
  }

  /** Start a fresh instruction of the given kind. */
  function Restart(s: AssemblerState, kind: Kind): AssemblerState {
    s.(currentInstruction := Blank(kind))
  }

  /** `addToInstructionValue` */
  function AddToInstructionValue(s: AssemblerState, ch: Option<char>): (r: AssemblerState)
    ensures r.currentInstruction.kind == s.currentInstruction.kind
    ensures |r.currentInstruction.value| >= |s.currentInstruction.value|
    ensures r.currentInstruction.value[..|s.currentInstruction.value|] == s.currentInstruction.value
    ensures ch.Some? ==> r.currentInstruction.value == s.currentInstruction.value + [ch.value]
    ensures r.(currentInstruction := s.currentInstruction) == s
  {
    s.(currentInstruction := s.currentInstruction.(value := s.currentInstruction.value + CharText(ch)))
  }

  /** `detectComment`: a `/` next to another `/` opens a line comment;
      anything else is an unexpected character. */
  function DetectComment(s: AssemblerState, ch: Option<char>, prev: Option<char>, next: Option<char>): (r: Outcome)
    ensures r.Success? <==> ch == Some('/') && (next == Some('/') || prev == Some('/'))
    ensures r.Success? ==> r.value == s.(currentInstruction := Blank(Comment))
    ensures r.Failure? ==> r.error == DefaultIllegal(s, ch)
  {
    if (ch == Some('/') && next == Some('/')) || (ch == Some('/') && prev == Some('/')) then
      Success(Restart(s, Comment))
    else
      Failure(DefaultIllegal(s, ch))
  }

  /** `finalizeInstruction`: the instruction in progress is done. The next
      one starts empty, awaiting a new line when asked to, and the previous
      instruction is always reset to kind `null`. */
  function FinalizeInstruction(s: AssemblerState, newLineRequired: bool): (r: AssemblerState)
    ensures r.previousInstruction.kind == Null && r.previousInstruction.value == ""
    ensures r.currentInstruction.value == ""
    ensures r.currentInstruction.kind == NullAwaitingNewLine <==> newLineRequired
    ensures r.currentInstruction.kind == Null <==> !newLineRequired
    ensures r.(currentInstruction := s.currentInstruction, previousInstruction := s.previousInstruction) == s
  {
    s.(currentInstruction := Blank(if newLineRequired then NullAwaitingNewLine else Null),
       previousInstruction := Blank(Null))
  }

  function Last<T>(xs: seq<T>): T
    requires |xs| > 0
  {
    xs[|xs| - 1]
  }

  /** `createAInstruction`: append exactly one A instruction. An all-digit
      operand is its own decimal value with no metadata; a known symbol
      gives its address, marked not initial; an unknown symbol takes the
      next variable address, marked initial, and moves the allocator on by
      one. The symbol table is never changed: the fresh address is not
      recorded under the symbol's name. */
  function CreateAInstruction(s: AssemblerState, value: string): (r: AssemblerState)
    ensures |r.result.instructions| == |s.result.instructions| + 1
    ensures r.result.instructions[..|s.result.instructions|] == s.result.instructions
    ensures r.result.symbols == s.result.symbols
    ensures r.(result := s.result, nextSymbolAddress := s.nextSymbolAddress) == s
    ensures Last(r.result.instructions).kind == MachineA
    ensures AllDigits(value) ==>
      && Last(r.result.instructions).value == DigitsValue(value)
      && Last(r.result.instructions).metadata == NoMetadata
      && r.nextSymbolAddress == s.nextSymbolAddress
    ensures !AllDigits(value) && value in s.result.symbols ==>
      && Last(r.result.instructions).value == s.result.symbols[value].address
      && Last(r.result.instructions).metadata == SymbolMetadata(value, false)
      && r.nextSymbolAddress == s.nextSymbolAddress
    ensures !AllDigits(value) && value !in s.result.symbols ==>
      && Last(r.result.instructions).value == s.nextSymbolAddress
      && Last(r.result.instructions).metadata == SymbolMetadata(value, true)
      && r.nextSymbolAddress == s.nextSymbolAddress + 1
  {
    var instructions := s.result.instructions;
    if AllDigits(value) then
      s.(result := s.result.(instructions := instructions + [Instruction(MachineA, DigitsValue(value), NoMetadata)]))
    else if value in s.result.symbols then
      s.(result := s.result.(instructions := instructions
           + [Instruction(MachineA, s.result.symbols[value].address, SymbolMetadata(value, false))]))
    else
      s.(nextSymbolAddress := s.nextSymbolAddress + 1,
         result := s.result.(instructions := instructions
           + [Instruction(MachineA, s.nextSymbolAddress, SymbolMetadata(value, true))]))
  }

  /** One alternative of `C_PATTERN` starting at index `i`: one or more of
      `A`, `D`, `M`, then `=`, then an operand `-1`, `1`, `A`, `D`, `M` or
      `0`. The optional operator and jump groups that may follow never
      decide whether a match exists. */
  predicate AssignmentAt(v: string, i: nat) {
    exists j :: i < j < |v| - 1 && (forall k :: i <= k < j ==> v[k] in "ADM") && v[j] == '=' &&
      (v[j + 1] in "1ADM0" || (v[j + 1] == '-' && j + 2 < |v| && v[j + 2] == '1'))
  }

  /** `value.match(C_PATTERN)` succeeds: the pattern is not anchored, so a
      match may start anywhere, either with the assignment alternative or
      with a single `A`, `D`, `M`, `0` or `1`. */
  predicate CPatternMatches(v: string) {
    exists i :: 0 <= i < |v| && (AssignmentAt(v, i) || v[i] in "ADM01")
  }

  /** `createCInstruction`: because the pattern is unanchored it fails
      exactly when the text holds none of `A`, `D`, `M`, `0`, `1`; on
      success nothing is emitted and the state is returned unchanged. */
  function CreateCInstruction(s: AssemblerState, value: string): (r: Outcome)
    ensures r.Failure? <==> forall i :: 0 <= i < |value| ==> value[i] !in "ADM01"
    ensures r.Success? ==> r.value == s
    ensures r.Failure? ==>
      r.error == Thrown("Invalid C instruction at line " + NatToString(s.line + 1) + ":\n" + value)
  {
    if !CPatternMatches(value) then
      Failure(Thrown("Invalid C instruction at line " + NatToString(s.line + 1) + ":\n" + value))
    else
      Success(s)
  }

  /** `/[X]+$/` for a set X: the text ends with one of the characters. */
  predicate EndsWithOneOf(v: string, cs: string) {
    |v| > 0 && v[|v| - 1] in cs
  }

  /** `/[ADM]+=[ADM01]([+-][ADM01])?/`: somewhere an assignment of a
      single operand. */
  predicate HasAssignment(v: string) {
    exists i :: 0 <= i < |v| - 2 && v[i] in "ADM" && v[i + 1] == '=' && v[i + 2] in "ADM01"
  }

  /** `/;[JGETL]*$/`: a `;` followed only by jump letters up to the end. */
  predicate HasJumpSuffix(v: string) {
    exists i :: 0 <= i < |v| && v[i] == ';' && forall j :: i < j < |v| ==> v[j] in "JGETL"
  }

  /** The handlers of kind `null`, between instructions. */
  function OnNull(s: AssemblerState, cls: CharClass, ch: Option<char>, prev: Option<char>, next: Option<char>): (r: Outcome)
    requires cls != NewLine ==> ch.Some?
    ensures Follows(s, r)
    ensures r.Success? ==> r.value.result == s.result
  {
    match cls
    case Space => Success(s)
    case NewLine => Success(s)
    case At => Success(Restart(s, A))
    case Slash => DetectComment(s, ch, prev, next)
    case Equal => Failure(DefaultIllegal(s, ch))
    case Operator => Failure(DefaultIllegal(s, ch))
    case Digit =>
      if ch.value == '0' || ch.value == '1' then
        Success(s.(currentInstruction := AssemblyInstruction(C, CharText(ch))))
      else
        Failure(DefaultIllegal(s, ch))
    case Alpha =>
      if ch.value in "AMD" then
        Success(s.(currentInstruction := AssemblyInstruction(C, s.currentInstruction.value + CharText(ch))))
      else
        Success(s)
    case Semicolon => Failure(DefaultIllegal(s, ch))
    case Paren => Success(Restart(s, Label))
    case Star => if prev == Some('/') then Success(Restart(s, MultilineComment)) else Success(s)
    case Other => Failure(DefaultIllegal(s, ch))
  }

  /** The handlers of kind `nullAwaitingNewLine`, after a label: only
      spaces, a comment or the end of the line are allowed. */
  function OnNullAwaitingNewLine(s: AssemblerState, cls: CharClass, ch: Option<char>, prev: Option<char>, next: Option<char>): (r: Outcome)
    ensures Follows(s, r)
    ensures r.Success? ==> r.value.result == s.result
  {
    match cls
    case Space => Success(s)
    case NewLine => Success(Restart(s, Null))
    case Slash => DetectComment(s, ch, prev, next)
    case _ => Failure(DefaultIllegal(s, ch))
  }

  /** The handlers of kind `comment`: everything is absorbed until the end
      of the line. */
  function OnComment(s: AssemblerState, cls: CharClass, ch: Option<char>): (r: Outcome)
    ensures Follows(s, r)
    ensures r.Success? ==> r.value.result == s.result
  {
    match cls
    case NewLine =>
      if s.currentInstruction.kind == Comment then
        Success(FinalizeInstruction(s, s.previousInstruction.kind == NullAwaitingNewLine))
      else
        Success(s)
    case _ => Success(AddToInstructionValue(s, ch))
  }

  /** The handlers of kind `multilineComment`: everything is absorbed, and
      a `/` right after `*` closes the comment. */
  function OnMultilineComment(s: AssemblerState, cls: CharClass, ch: Option<char>, prev: Option<char>): (r: Outcome)
    ensures Follows(s, r)
    ensures r.Success? ==> r.value.result == s.result
  {
    match cls
    case Slash =>
      if prev == Some('*') then
        Success(FinalizeInstruction(s,
          s.previousInstruction.kind == NullAwaitingNewLine && '\n' !in s.currentInstruction.value))
      else
        Success(s)
    case _ => Success(AddToInstructionValue(s, ch))
  }

  /** The symbol table after binding a label to the current instruction
      count. */
  function BindLabel(result: AssemblerResult, name: string): AssemblerResult {
    result.(symbols := result.symbols[name := Symbol(|result.instructions|, false)])
  }

  /** The handlers of kind `label`, between `(` and `)`. */
  function OnLabel(s: AssemblerState, cls: CharClass, ch: Option<char>): (r: Outcome)
    requires cls != NewLine ==> ch.Some?
    ensures Follows(s, r)
    ensures r.Success? ==> r.value.result.instructions == s.result.instructions
  {
    match cls
    case Space => Success(s)
    case NewLine => Failure(Illegal("Unterminated label", s, CharText(ch)))
    case Slash => Failure(Illegal("Unterminated label", s, CharText(ch)))
    case Digit =>
      if |s.currentInstruction.value| == 0 then
        Failure(Illegal("label cannot start with number", s, "digit"))
      else
        Success(AddToInstructionValue(s, ch))
    case Alpha => Success(AddToInstructionValue(s, ch))
    case Paren =>
      if ch == Some(')') then
        var name := Trim(s.currentInstruction.value);
        if name in s.result.symbols then
          Failure(Illegal(
            (if s.result.symbols[name].builtIn then "Cannot redefine built-in label " else "Duplicate label ")
            + name, s, CharText(ch)))
        else
          Success(s.(result := BindLabel(s.result, name), currentInstruction := Blank(NullAwaitingNewLine)))
      else
        Failure(Illegal("missing )", s, CharText(ch)))
    case _ => Failure(DefaultIllegal(s, ch))
  }

  /** Emit the A instruction in progress and start afresh. */
  function EmitA(s: AssemblerState): AssemblerState {
    FinalizeInstruction(CreateAInstruction(s, s.currentInstruction.value), false)
  }

  /** The handlers of kind `A`, after `@`. */
  function OnA(s: AssemblerState, cls: CharClass, ch: Option<char>, prev: Option<char>, next: Option<char>): (r: Outcome)
    ensures Follows(s, r)
    ensures r.Success? ==> r.value.result == s.result || r.value == EmitA(s)
    ensures r.Success? && r.value.result != s.result ==>
      (cls == Space || cls == NewLine) && s.currentInstruction.value != ""
  {
    match cls
    case Space => if s.currentInstruction.value == "" then Success(s) else Success(EmitA(s))
    case NewLine =>
      if s.currentInstruction.value == "" then
        Failure(Illegal("Empty A instruction", s, "\n"))
      else
        Success(EmitA(s))
    case Slash => DetectComment(s, ch, prev, next)
    case Digit =>
      if s.currentInstruction.value == "" then
        Failure(Illegal("Symbol cannot start with number", s, CharText(ch)))
      else
        Success(AddToInstructionValue(s, ch))
    case Alpha => Success(AddToInstructionValue(s, ch))
    case _ => Failure(DefaultIllegal(s, ch))
  }

  /** The handlers of kind `C`. The `+`/`-` handler of the source does not
      parse and is represented by `OperatorHandlerMissing`. */
  function OnC(s: AssemblerState, cls: CharClass, ch: Option<char>, prev: Option<char>, next: Option<char>): (r: Outcome)
    requires cls != NewLine ==> ch.Some?
    ensures Follows(s, r)
    ensures r.Success? ==> r.value.result == s.result
  {
    var v := s.currentInstruction.value;
    match cls
    case Space => Success(s)
    case NewLine =>
      var s1 :- CreateCInstruction(s, v);
      Success(FinalizeInstruction(s1, false))
    case Operator => Failure(OperatorHandlerMissing)
    case Slash =>
      (match DetectComment(s, ch, prev, next)
       case Failure(e) => Failure(e)
       case Success(s1) =>
         (match CreateCInstruction(s1, s1.currentInstruction.value)
          case Failure(e) => Failure(e)
          case Success(s2) => Success(FinalizeInstruction(s2, true))))
    case Digit =>
      if ch.value != '0' && ch.value != '1' then Failure(DefaultIllegal(s, ch))
      else if prev == Some('-') then Success(AddToInstructionValue(s, ch))
      else if !('=' in v || v == "") then Failure(DefaultIllegal(s, ch))
      else Success(AddToInstructionValue(s, ch))
    case Alpha =>
      var c := ch.value;
      if c !in "ADMJGETL" then Failure(DefaultIllegal(s, ch))
      else if c in "ADM" then
        if EndsWithOneOf(v, "ADM") then
          if c in v then Failure(DefaultIllegal(s, ch)) else Success(AddToInstructionValue(s, ch))
        else if !EndsWithOneOf(v, "=+-") then Failure(DefaultIllegal(s, ch))
        else Success(AddToInstructionValue(s, ch))
      else if !HasJumpSuffix(v) then Failure(DefaultIllegal(s, ch))
      else Success(AddToInstructionValue(s, ch))
    case Semicolon =>
      if !(EndsWithOneOf(v, "01ADM") || HasAssignment(v)) then Failure(DefaultIllegal(s, ch))
      else Success(s)
    case _ => Failure(DefaultIllegal(s, ch))
  }

  /** The result only grows: earlier instructions and symbols stay as they
      were, and at most one instruction and one symbol are added. */
  ghost predicate Grows(before: AssemblerResult, after: AssemblerResult) {
    && |before.instructions| <= |after.instructions| <= |before.instructions| + 1
    && after.instructions[..|before.instructions|] == before.instructions
    && before.symbols.Keys <= after.symbols.Keys
    && (forall a, b :: a in after.symbols && a !in before.symbols && b in after.symbols && b !in before.symbols ==> a == b)
    && forall name :: name in before.symbols ==> after.symbols[name] == before.symbols[name]
  }

  /** A successful step leaves the cursor where it was and only grows the
      result. */
  ghost predicate Follows(s: AssemblerState, r: Outcome) {
    r.Success? ==>
      && r.value.lines == s.lines && r.value.line == s.line
      && r.value.position == s.position && r.value.isFinished == s.isFinished
      && Grows(s.result, r.value.result)
  }

  /** One call of `parse` on the character `ch` with its neighbours `prev`
      and `next` on the same line (`None` where the line has none). A step
      never moves the cursor and never takes anything out of the result. */
  function Step(s: AssemblerState, ch: Option<char>, prev: Option<char>, next: Option<char>): (r: Outcome)
    ensures r.Success? ==>
      && r.value.lines == s.lines && r.value.line == s.line
      && r.value.position == s.position && r.value.isFinished == s.isFinished
    ensures r.Success? ==> Grows(s.result, r.value.result)
  {
    var cls := Classify(ch, s.isFinished);
    var r := match s.currentInstruction.kind
      case Null => OnNull(s, cls, ch, prev, next)
      case NullAwaitingNewLine => OnNullAwaitingNewLine(s, cls, ch, prev, next)
      case Comment => OnComment(s, cls, ch)
      case MultilineComment => OnMultilineComment(s, cls, ch, prev)
      case Label => OnLabel(s, cls, ch)
      case A => OnA(s, cls, ch, prev, next)
      case C => OnC(s, cls, ch, prev, next);
    r
  }

  /** The character at index `i` of a line, undefined outside it. */
  function CharAt(text: string, i: int): Option<char> {
    if 0 <= i < |text| then Some(text[i]) else None
  }

  /** `parse(state)`: one step on the character under the cursor, with
      the characters beside it on its line. Past the end of the line the
      character and the next one are undefined. */
  function ParseAt(s: AssemblerState): (r: Outcome)
    requires s.line < |s.lines|
    ensures r.Success? ==>
      && r.value.lines == s.lines && r.value.line == s.line
      && r.value.position == s.position && r.value.isFinished == s.isFinished
      && Grows(s.result, r.value.result)
    ensures s.position >= |s.lines[s.line]| ==>
      r == Step(s, None, CharAt(s.lines[s.line], s.position - 1), None)
  {
    var text := s.lines[s.line];
    Step(s, CharAt(text, s.position), CharAt(text, s.position - 1), CharAt(text, s.position + 1))
  }
}

=== FILE: parse_properties.dfy ===
/** Properties of the parse.ts state machine as written: symbol
    resolution in A instructions, label binding, the rejections, the
    states reachable from the initial state, and what the C state really
    accepts. */
module ParseProperties {
  import opened Wrappers
  import opened Text
  import opened AsmState
  import opened Parse

  /** Two unknown symbols referenced one after the other get successive
      addresses, and neither is entered in the symbol table. This holds
      also when both references name the same symbol: the second reference
      does not reuse the first one's address. */
  lemma FreshReferencesGetSuccessiveAddresses(s: AssemblerState, a: string, b: string)
    requires !AllDigits(a) && a !in s.result.symbols
    requires !AllDigits(b) && b !in s.result.symbols
    ensures var s1 := CreateAInstruction(s, a);
      var s2 := CreateAInstruction(s1, b);
      && Last(s1.result.instructions).value == s.nextSymbolAddress
      && Last(s2.result.instructions).value == s.nextSymbolAddress + 1
      && s2.nextSymbolAddress == s.nextSymbolAddress + 2
      && s2.result.symbols == s.result.symbols
  {
  }

  /** `@n` for a rendered number `n` loads `n` itself, with no metadata and
      no change to the symbols or the allocator. */
  lemma NumericOperand(s: AssemblerState, n: nat)
    ensures var r := CreateAInstruction(s, NatToString(n));
      && Last(r.result.instructions) == Instruction(MachineA, n, NoMetadata)
      && r.result.symbols == s.result.symbols
      && r.nextSymbolAddress == s.nextSymbolAddress
  {
    DecimalRoundTrip(n);
  }

  /** `)` closes a label. An unknown name is bound, as a non-built-in
      symbol, to the number of instructions emitted so far; nothing is
      emitted and a new line is awaited. A known name is rejected, with a
      message that says whether it is built in. */
  lemma LabelClose(s: AssemblerState, prev: Option<char>, next: Option<char>)
    requires s.currentInstruction.kind == Label && !s.isFinished
    ensures var name := Trim(s.currentInstruction.value);
      var r := Step(s, Some(')'), prev, next);
      && (name !in s.result.symbols ==>
            && r.Success?
            && r.value.result.symbols == s.result.symbols[name := Symbol(|s.result.instructions|, false)]
            && r.value.result.instructions == s.result.instructions
            && r.value.currentInstruction == Blank(NullAwaitingNewLine)
            && r.value.nextSymbolAddress == s.nextSymbolAddress)
      && (name in s.result.symbols && s.result.symbols[name].builtIn ==>
            r == Failure(Illegal("Cannot redefine built-in label " + name, s, ")")))
      && (name in s.result.symbols && !s.result.symbols[name].builtIn ==>
            r == Failure(Illegal("Duplicate label " + name, s, ")")))
  {
  }

  /** A `(` inside a label is rejected as a missing `)`. */
  lemma LabelRejectsOpeningParen(s: AssemblerState, prev: Option<char>, next: Option<char>)
    requires s.currentInstruction.kind == Label && !s.isFinished
    ensures Step(s, Some('('), prev, next) == Failure(Illegal("missing )", s, "("))
  {
  }

  /** Once a label is bound, a reference to it loads the label's address,
      which is the index the next emitted instruction will have. */
  lemma LabelThenReference(s: AssemblerState, prev: Option<char>, next: Option<char>)
    requires s.currentInstruction.kind == Label && !s.isFinished
    requires Trim(s.currentInstruction.value) !in s.result.symbols
    requires !AllDigits(Trim(s.currentInstruction.value))
    ensures var name := Trim(s.currentInstruction.value);
      var r := Step(s, Some(')'), prev, next);
      && r.Success?
      && var t := CreateAInstruction(r.value, name);
      && Last(t.result.instructions) == Instruction(MachineA, |s.result.instructions|, SymbolMetadata(name, false))
      && |t.result.instructions| == |s.result.instructions| + 1
      && t.nextSymbolAddress == s.nextSymbolAddress
  {
    LabelClose(s, prev, next);
  }

  /** A label cannot start with a digit. */
  lemma LabelRejectsLeadingDigit(s: AssemblerState, d: char, prev: Option<char>, next: Option<char>)
    requires s.currentInstruction.kind == Label && s.currentInstruction.value == "" && !s.isFinished
    requires IsDigit(d)
    ensures Step(s, Some(d), prev, next) == Failure(Illegal("label cannot start with number", s, "digit"))
  {
  }

  /** The end of the line and `/` inside a label are rejected as an
      unterminated label. */
  lemma LabelRejectsLineEndAndSlash(s: AssemblerState, ch: Option<char>, prev: Option<char>, next: Option<char>)
    requires s.currentInstruction.kind == Label
    requires Classify(ch, s.isFinished) == NewLine || Classify(ch, s.isFinished) == Slash
    ensures Step(s, ch, prev, next) == Failure(Illegal("Unterminated label", s, CharText(ch)))
  {
  }

  /** An A operand cannot start with a digit, so `@42` is rejected at the
      `4`. */
  lemma ARejectsLeadingDigit(s: AssemblerState, d: char, prev: Option<char>, next: Option<char>)
    requires s.currentInstruction.kind == A && s.currentInstruction.value == "" && !s.isFinished
    requires IsDigit(d)
    ensures Step(s, Some(d), prev, next) == Failure(Illegal("Symbol cannot start with number", s, [d]))
  {
  }

  /** The end of the line right after `@` is rejected as an empty A
      instruction. */
  lemma ARejectsEmptyOperand(s: AssemblerState, ch: Option<char>, prev: Option<char>, next: Option<char>)
    requires s.currentInstruction.kind == A && s.currentInstruction.value == ""
    requires Classify(ch, s.isFinished) == NewLine
    ensures Step(s, ch, prev, next) == Failure(Illegal("Empty A instruction", s, "\n"))
  {
  }

  /** After a label only spaces, a `//` comment and the end of the line are
      accepted, and the end of the line returns to kind `null`. */
  lemma AwaitingNewLineAcceptsOnly(s: AssemblerState, ch: Option<char>, prev: Option<char>, next: Option<char>)
    requires s.currentInstruction.kind == NullAwaitingNewLine
    ensures var cls := Classify(ch, s.isFinished);
      var r := Step(s, ch, prev, next);
      && (r.Success? <==>
            || cls == Space || cls == NewLine
            || (cls == Slash && (next == Some('/') || prev == Some('/'))))
      && (cls == NewLine ==> r == Success(s.(currentInstruction := Blank(Null))))
      && (r.Failure? ==> r.error == DefaultIllegal(s, ch))
  {
    var cls := Classify(ch, s.isFinished);
    assert Step(s, ch, prev, next) == OnNullAwaitingNewLine(s, cls, ch, prev, next);
  }

  /** A symbol text: empty, or a letter followed by letters and digits. */
  predicate IsSymbolText(v: string) {
    && (v == "" || !IsDigit(v[0]))
    && forall i :: 0 <= i < |v| ==> IsDigit(v[i]) || IsAsciiLetter(v[i])
  }

  /** What holds of every state the machine reaches from its initial
      state: the previous instruction is always the empty `null` one, the
      two `null` kinds carry no text, A operands and label names are
      symbol texts, and C text is a non-empty run of `A`, `D`, `M`, `0`,
      `1`. */
  ghost predicate Consistent(s: AssemblerState) {
    var v := s.currentInstruction.value;
    && s.previousInstruction == Blank(Null)
    && (s.currentInstruction.kind == Null ==> v == "")
    && (s.currentInstruction.kind == NullAwaitingNewLine ==> v == "")
    && (s.currentInstruction.kind == A ==> IsSymbolText(v))
    && (s.currentInstruction.kind == Label ==> IsSymbolText(v))
    && (s.currentInstruction.kind == C ==> v != "" && forall i :: 0 <= i < |v| ==> v[i] in "ADM01")
  }

  lemma InitialStateConsistent(source: string)
    ensures Consistent(CreateInitialState(source))
  {
  }

  lemma AppendKeepsSymbolText(s: AssemblerState, c: char)
    requires IsSymbolText(s.currentInstruction.value)
    requires IsAsciiLetter(c) || (IsDigit(c) && s.currentInstruction.value != "")
    ensures IsSymbolText(AddToInstructionValue(s, Some(c)).currentInstruction.value)
  {
    var v := s.currentInstruction.value + [c];
    assert AddToInstructionValue(s, Some(c)).currentInstruction.value == v;
    assert v[0] == (if s.currentInstruction.value == "" then c else s.currentInstruction.value[0]);
  }

  lemma OnNullConsistent(s: AssemblerState, ch: Option<char>, prev: Option<char>, next: Option<char>)
    requires Consistent(s) && s.currentInstruction.kind == Null
    ensures var r := Step(s, ch, prev, next); r.Success? ==> Consistent(r.value)
  {
  }

  lemma OnLabelConsistent(s: AssemblerState, ch: Option<char>, prev: Option<char>, next: Option<char>)
    requires Consistent(s) && s.currentInstruction.kind == Label
    ensures var r := Step(s, ch, prev, next); r.Success? ==> Consistent(r.value)
  {
    var cls := Classify(ch, s.isFinished);
    if Step(s, ch, prev, next).Success? && (cls == Digit || cls == Alpha) {
      AppendKeepsSymbolText(s, ch.value);
    }
  }

  lemma OnAConsistent(s: AssemblerState, ch: Option<char>, prev: Option<char>, next: Option<char>)
    requires Consistent(s) && s.currentInstruction.kind == A
    ensures var r := Step(s, ch, prev, next); r.Success? ==> Consistent(r.value)
  {
    var cls := Classify(ch, s.isFinished);
    if Step(s, ch, prev, next).Success? && (cls == Digit || cls == Alpha) {
      AppendKeepsSymbolText(s, ch.value);
    }
  }

  lemma OnCConsistent(s: AssemblerState, ch: Option<char>, prev: Option<char>, next: Option<char>)
    requires Consistent(s) && s.currentInstruction.kind == C
    ensures var r := Step(s, ch, prev, next); r.Success? ==> Consistent(r.value)
  {
    var cls := Classify(ch, s.isFinished);
    assert Step(s, ch, prev, next) == OnC(s, cls, ch, prev, next);
    CHandlersKeepConsistent(s, cls, ch, prev, next);
  }

  lemma CHandlersKeepConsistent(s: AssemblerState, cls: CharClass, ch: Option<char>, prev: Option<char>, next: Option<char>)
    requires Consistent(s) && s.currentInstruction.kind == C
    requires cls == Classify(ch, s.isFinished)
    ensures var r := OnC(s, cls, ch, prev, next); r.Success? ==> Consistent(r.value)
  {
    match cls
    case Digit => CDigitKeepsConsistent(s, ch.value, prev, next);
    case Alpha => CLetterKeepsConsistent(s, ch.value, prev, next);
    case NewLine => CFinishKeepsConsistent(s, cls, ch, prev, next);
    case Slash => CFinishKeepsConsistent(s, cls, ch, prev, next);
    case _ => CRestKeepsState(s, cls, ch, prev, next);
  }

  /** The two ways a C instruction ends leave an empty `null` or
      `nullAwaitingNewLine` instruction behind. */
  lemma CFinishKeepsConsistent(s: AssemblerState, cls: CharClass, ch: Option<char>, prev: Option<char>, next: Option<char>)
    requires Consistent(s) && s.currentInstruction.kind == C
    requires cls == NewLine || (cls == Slash && ch.Some?)
    ensures var r := OnC(s, cls, ch, prev, next); r.Success? ==> Consistent(r.value)
  {
    var r := OnC(s, cls, ch, prev, next);
    if r.Success? {
      assert r.value.currentInstruction.value == "";
      assert r.value.previousInstruction == Blank(Null);
    }
  }

  /** Every other class either keeps the state as it is or fails. */
  lemma CRestKeepsState(s: AssemblerState, cls: CharClass, ch: Option<char>, prev: Option<char>, next: Option<char>)
    requires cls !in {NewLine, Slash, Digit, Alpha} && ch.Some?
    ensures var r := OnC(s, cls, ch, prev, next); r.Success? ==> r.value == s
  {
  }

  lemma CDigitKeepsConsistent(s: AssemblerState, c: char, prev: Option<char>, next: Option<char>)
    requires Consistent(s) && s.currentInstruction.kind == C
    ensures var r := OnC(s, Digit, Some(c), prev, next); r.Success? ==> Consistent(r.value)
  {
    if OnC(s, Digit, Some(c), prev, next).Success? {
      assert c == '0' || c == '1';
      CAppendKeepsConsistent(s, c);
    }
  }

  lemma CLetterKeepsConsistent(s: AssemblerState, c: char, prev: Option<char>, next: Option<char>)
    requires Consistent(s) && s.currentInstruction.kind == C
    ensures var r := OnC(s, Alpha, Some(c), prev, next); r.Success? ==> Consistent(r.value)
  {
    var v := s.currentInstruction.value;
    if c in "JGETL" {
      assert forall i :: 0 <= i < |v| ==> v[i] != ';' by {
        forall i | 0 <= i < |v|
          ensures v[i] != ';'
        {
          assert v[i] in "ADM01";
        }
      }
      JumpLetterWithoutSemicolon(s, c, prev, next);
    } else if OnC(s, Alpha, Some(c), prev, next).Success? {
      assert c in "ADM";
      CAppendKeepsConsistent(s, c);
    }
  }

  lemma CAppendKeepsConsistent(s: AssemblerState, c: char)
    requires Consistent(s) && s.currentInstruction.kind == C
    requires c in "ADM01"
    ensures Consistent(AddToInstructionValue(s, Some(c)))
  {
    var v := s.currentInstruction.value + [c];
    assert AddToInstructionValue(s, Some(c)).currentInstruction.value == v;
    assert forall i :: 0 <= i < |v| - 1 ==> v[i] == s.currentInstruction.value[i];
  }

  /** Every successful step from a consistent state reaches a consistent
      state; in particular the previous instruction stays the empty `null`
      one, as no handler writes it except `finalizeInstruction`. */
  lemma StepPreservesConsistent(s: AssemblerState, ch: Option<char>, prev: Option<char>, next: Option<char>)
    requires Consistent(s)
    ensures var r := Step(s, ch, prev, next); r.Success? ==> Consistent(r.value)
  {
    match s.currentInstruction.kind
    case Null => OnNullConsistent(s, ch, prev, next);
    case Label => OnLabelConsistent(s, ch, prev, next);
    case A => OnAConsistent(s, ch, prev, next);
    case C => OnCConsistent(s, ch, prev, next);
    case _ => OnCommentsConsistent(s, ch, prev, next);
  }

  /** After a label and inside comments the text is only kept or dropped,
      and every way out ends the instruction. */
  lemma OnCommentsConsistent(s: AssemblerState, ch: Option<char>, prev: Option<char>, next: Option<char>)
    requires Consistent(s)
    requires s.currentInstruction.kind in {NullAwaitingNewLine, Comment, MultilineComment}
    ensures var r := Step(s, ch, prev, next); r.Success? ==> Consistent(r.value)
  {
    var cls := Classify(ch, s.isFinished);
    match s.currentInstruction.kind
    case NullAwaitingNewLine =>
      assert Step(s, ch, prev, next) == OnNullAwaitingNewLine(s, cls, ch, prev, next);
    case Comment => assert Step(s, ch, prev, next) == OnComment(s, cls, ch);
    case MultilineComment => assert Step(s, ch, prev, next) == OnMultilineComment(s, cls, ch, prev);
  }

  /** Hence the end of a line comment always returns to kind `null`,
      never to `nullAwaitingNewLine`. */
  lemma CommentEndReturnsToNull(s: AssemblerState, ch: Option<char>, prev: Option<char>, next: Option<char>)
    requires Consistent(s) && s.currentInstruction.kind == Comment
    requires Classify(ch, s.isFinished) == NewLine
    ensures Step(s, ch, prev, next) == Success(s.(currentInstruction := Blank(Null)))
  {
  }

  /** `createCInstruction` on the text just reset by `detectComment` is
      empty, so a `/` in a C instruction never lets the step return
      normally: it is either an unexpected character or an invalid C
      instruction. */
  lemma CSlashNeverSucceeds(s: AssemblerState, prev: Option<char>, next: Option<char>)
    requires s.currentInstruction.kind == C && !s.isFinished
    ensures var r := Step(s, Some('/'), prev, next);
      && r.Failure?
      && (next == Some('/') || prev == Some('/') ==>
            r.error == Thrown("Invalid C instruction at line " + NatToString(s.line + 1) + ":\n"))
      && (next != Some('/') && prev != Some('/') ==> r.error == DefaultIllegal(s, Some('/')))
  {
    assert Classify(Some('/'), false) == Slash;
    assert Step(s, Some('/'), prev, next) == OnC(s, Slash, Some('/'), prev, next);
    var d := DetectComment(s, Some('/'), prev, next);
    if d.Success? {
      assert d.value == Restart(s, Comment);
      var c := CreateCInstruction(d.value, "");
      assert c.Failure? && d.value.line == s.line;
      assert "Invalid C instruction at line " + NatToString(s.line + 1) + ":\n" + ""
        == "Invalid C instruction at line " + NatToString(s.line + 1) + ":\n";
    }
  }

  /** `;` is checked but never stored, so in a reachable state the C text
      never holds the `;` a jump mnemonic needs, and every jump letter is
      rejected. */
  lemma CJumpLettersRejected(s: AssemblerState, c: char, prev: Option<char>, next: Option<char>)
    requires Consistent(s) && s.currentInstruction.kind == C && !s.isFinished
    requires c in "JGETL"
    ensures Step(s, Some(c), prev, next) == Failure(DefaultIllegal(s, Some(c)))
  {
    assert IsAsciiLetter(c) && Classify(Some(c), false) == Alpha;
    assert Step(s, Some(c), prev, next) == OnC(s, Alpha, Some(c), prev, next);
    var v := s.currentInstruction.value;
    assert forall i :: 0 <= i < |v| ==> v[i] != ';' by {
      forall i | 0 <= i < |v|
        ensures v[i] != ';'
      {
        assert v[i] in "ADM01";
      }
    }
    JumpLetterWithoutSemicolon(s, c, prev, next);
  }

  lemma JumpLetterWithoutSemicolon(s: AssemblerState, c: char, prev: Option<char>, next: Option<char>)
    requires c in "JGETL"
    requires forall i :: 0 <= i < |s.currentInstruction.value| ==> s.currentInstruction.value[i] != ';'
    ensures OnC(s, Alpha, Some(c), prev, next) == Failure(DefaultIllegal(s, Some(c)))
  {
    assert !HasJumpSuffix(s.currentInstruction.value);
  }

  /** `=` is an unexpected character in the C state, so no destination can
      be written either. */
  lemma CRejectsEquals(s: AssemblerState, prev: Option<char>, next: Option<char>)
    requires s.currentInstruction.kind == C && !s.isFinished
    ensures Step(s, Some('='), prev, next) == Failure(DefaultIllegal(s, Some('=')))
  {
  }

  /** Only the A handlers emit instructions. */
  lemma OnlyAEmits(s: AssemblerState, ch: Option<char>, prev: Option<char>, next: Option<char>)
    requires s.currentInstruction.kind != A
    ensures var r := Step(s, ch, prev, next);
      r.Success? ==> r.value.result.instructions == s.result.instructions
  {
    var cls := Classify(ch, s.isFinished);
    var r := Step(s, ch, prev, next);
    match s.currentInstruction.kind
    case Null => assert r == OnNull(s, cls, ch, prev, next);
    case NullAwaitingNewLine => assert r == OnNullAwaitingNewLine(s, cls, ch, prev, next);
    case Comment => assert r == OnComment(s, cls, ch);
    case MultilineComment => assert r == OnMultilineComment(s, cls, ch, prev);
    case Label => assert r == OnLabel(s, cls, ch);
    case C => assert r == OnC(s, cls, ch, prev, next);
  }

  /** In a reachable state an A operand is never all digits, so every A
      instruction the machine emits carries a symbol. */
  lemma EmittedOperandsAreSymbols(s: AssemblerState, ch: Option<char>, prev: Option<char>, next: Option<char>)
    requires Consistent(s)
    ensures var r := Step(s, ch, prev, next);
      r.Success? && |r.value.result.instructions| > |s.result.instructions| ==>
        Last(r.value.result.instructions).metadata.SymbolMetadata?
  {
    var v := s.currentInstruction.value;
    if s.currentInstruction.kind != A {
      OnlyAEmits(s, ch, prev, next);
    } else if v != "" {
      assert Step(s, ch, prev, next) == OnA(s, Classify(ch, s.isFinished), ch, prev, next);
      assert !IsDigit(v[0]);
      assert !AllDigits(v);
    }
  }

  /** Past the last character of its line the cursor reads an undefined
      character, which ends the instruction in progress: a pending A
      operand is emitted there, and a line comment is closed. */
  lemma ParseAtLineEnd(s: AssemblerState)
    requires s.line < |s.lines| && s.position >= |s.lines[s.line]|
    requires Consistent(s)
    ensures s.currentInstruction.kind == A && s.currentInstruction.value != "" ==>
      ParseAt(s) == Success(FinalizeInstruction(CreateAInstruction(s, s.currentInstruction.value), false))
    ensures s.currentInstruction.kind == Comment ==>
      ParseAt(s) == Success(s.(currentInstruction := Blank(Null)))
    ensures s.currentInstruction.kind == A && s.currentInstruction.value == "" ==>
      ParseAt(s) == Failure(Illegal("Empty A instruction", s, "\n"))
  {
    assert CharAt(s.lines[s.line], s.position) == None;
  }

  /** Between instructions, `@` starts an A operand, either paren starts a
      label, and `0`, `1`, `A`, `M`, `D` start a C instruction holding that
      character. White space, any other letter and a `*` not after `/` are
      ignored, and a `*` after `/` opens a block comment. */
  lemma NullStarts(s: AssemblerState, c: char, prev: Option<char>, next: Option<char>)
    requires s.currentInstruction == Blank(Null) && !s.isFinished
    ensures var r := Step(s, Some(c), prev, next);
      && (c == '@' ==> r == Success(s.(currentInstruction := Blank(A))))
      && (c == '(' || c == ')' ==> r == Success(s.(currentInstruction := Blank(Label))))
      && (c in "01AMD" ==> r == Success(s.(currentInstruction := AssemblyInstruction(C, [c]))))
      && (IsSpace(c) || (IsAsciiLetter(c) && c !in "AMD") ==> r == Success(s))
      && (c == '*' ==>
            r == Success(if prev == Some('/') then s.(currentInstruction := Blank(MultilineComment)) else s))
  {
    var cls := Classify(Some(c), false);
    assert Step(s, Some(c), prev, next) == OnNull(s, cls, Some(c), prev, next);
    NullHandlersStart(s, cls, c, prev, next);
  }

  lemma NullHandlersStart(s: AssemblerState, cls: CharClass, c: char, prev: Option<char>, next: Option<char>)
    requires s.currentInstruction == Blank(Null)
    requires cls == Classify(Some(c), false)
    ensures var r := OnNull(s, cls, Some(c), prev, next);
      && (c == '@' ==> r == Success(s.(currentInstruction := Blank(A))))
      && (c == '(' || c == ')' ==> r == Success(s.(currentInstruction := Blank(Label))))
      && (c in "01AMD" ==> r == Success(s.(currentInstruction := AssemblyInstruction(C, [c]))))
      && (IsSpace(c) || (IsAsciiLetter(c) && c !in "AMD") ==> r == Success(s))
      && (c == '*' ==>
            r == Success(if prev == Some('/') then s.(currentInstruction := Blank(MultilineComment)) else s))
  {
    if c in "01" {
      assert cls == Digit;
    } else if c in "AMD" {
      assert cls == Alpha;
      assert s.currentInstruction.value + CharText(Some(c)) == [c];
    }
  }

  /** Between instructions a step succeeds exactly on the characters that
      start or continue nothing harmful: `@`, a paren, `0`, `1`, `*`, white
      space, any letter, and a `/` that is part of `//`, which opens a line
      comment. So a `/` followed by `*` is rejected. Every failure is the
      default error. */
  lemma NullAcceptsOnly(s: AssemblerState, c: char, prev: Option<char>, next: Option<char>)
    requires s.currentInstruction.kind == Null && !s.isFinished
    ensures var r := Step(s, Some(c), prev, next);
      && (r.Success? <==>
            || c in "@()01*" || IsSpace(c) || IsAsciiLetter(c)
            || (c == '/' && (next == Some('/') || prev == Some('/'))))
      && (c == '/' && r.Success? ==> r == Success(s.(currentInstruction := Blank(Comment))))
      && (r.Failure? ==> r.error == DefaultIllegal(s, Some(c)))
  {
    var cls := Classify(Some(c), false);
    assert Step(s, Some(c), prev, next) == OnNull(s, cls, Some(c), prev, next);
    OnNullAcceptsOnly(s, cls, c, prev, next);
  }

  lemma OnNullAcceptsOnly(s: AssemblerState, cls: CharClass, c: char, prev: Option<char>, next: Option<char>)
    requires cls == Classify(Some(c), false)
    ensures var r := OnNull(s, cls, Some(c), prev, next);
      && (r.Success? <==>
            || c in "@()01*" || IsSpace(c) || IsAsciiLetter(c)
            || (c == '/' && (next == Some('/') || prev == Some('/'))))
      && (c == '/' && r.Success? ==> r == Success(s.(currentInstruction := Blank(Comment))))
      && (r.Failure? ==> r.error == DefaultIllegal(s, Some(c)))
  {
    NullAcceptedClasses(c, cls);
    match cls
    case Slash =>
    case Digit =>
    case Alpha =>
    case _ =>
  }

  /** The characters accepted between instructions, by class. */
  lemma NullAcceptedClasses(c: char, cls: CharClass)
    requires cls == Classify(Some(c), false)
    ensures (c in "@()01*" || IsSpace(c) || IsAsciiLetter(c)) <==>
      (cls in {Space, NewLine, At, Alpha, Paren, Star} || (cls == Digit && (c == '0' || c == '1')))
    ensures c == '/' <==> cls == Slash
  {
    match cls
    case NewLine => assert c == '\n' && IsSpace(c);
    case Digit => assert IsDigit(c) && !IsSpace(c) && !IsAsciiLetter(c);
    case Equal => assert c == '=' && c !in "@()01*";
    case Operator => assert (c == '+' || c == '-') && c !in "@()01*";
    case Semicolon => assert c == ';' && c !in "@()01*";
    case Other => assert c !in "@()01*";
    case _ =>
  }

  /** Inside a block comment every character, and the end of the line, is
      kept as comment text, except `/`: right after `*` it closes the
      comment and returns to kind `null`, and anywhere else it is dropped
      without a trace. */
  lemma MultilineCommentSteps(s: AssemblerState, ch: Option<char>, prev: Option<char>, next: Option<char>)
    requires s.currentInstruction.kind == MultilineComment && s.previousInstruction == Blank(Null)
    ensures var r := Step(s, ch, prev, next);
      && (Classify(ch, s.isFinished) == Slash && prev == Some('*') ==>
            r == Success(s.(currentInstruction := Blank(Null))))
      && (Classify(ch, s.isFinished) == Slash && prev != Some('*') ==> r == Success(s))
      && (Classify(ch, s.isFinished) != Slash ==> r == Success(AddToInstructionValue(s, ch)))
  {
    var cls := Classify(ch, s.isFinished);
    assert Step(s, ch, prev, next) == OnMultilineComment(s, cls, ch, prev);
  }

  /** A `//` right after an A operand opens a comment and throws the
      operand away: nothing is emitted for it. */
  lemma ACommentDropsOperand(s: AssemblerState, prev: Option<char>, next: Option<char>)
    requires s.currentInstruction.kind == A && !s.isFinished
    requires next == Some('/') || prev == Some('/')
    ensures var r := Step(s, Some('/'), prev, next);
      && r == Success(s.(currentInstruction := Blank(Comment)))
      && r.value.result == s.result
  {
  }

  /** In a reachable state a label's text holds no white space, so the name
      `)` binds is exactly the text gathered since `(`. */
  lemma LabelNameIsGatheredText(s: AssemblerState)
    requires Consistent(s) && s.currentInstruction.kind == Label
    ensures Trim(s.currentInstruction.value) == s.currentInstruction.value
  {
    var v := s.currentInstruction.value;
    forall k | 0 <= k < |v| ensures !IsSpace(v[k]) {
      assert IsDigit(v[k]) || IsAsciiLetter(v[k]);
    }
    TrimWithoutSpaces(v);
  }

  /** White space in an A operand: right after `@` it is ignored, so
      `@ foo` loads `foo`; after a non-empty operand it emits the operand
      and returns to kind `null`. */
  lemma ASpaceSkipsOrEmits(s: AssemblerState, c: char, prev: Option<char>, next: Option<char>)
    requires s.currentInstruction.kind == A && !s.isFinished
    requires IsSpace(c) && c != '\n'
    ensures Step(s, Some(c), prev, next)
      == Success(if s.currentInstruction.value == "" then s else EmitA(s))
  {
    assert Classify(Some(c), false) == Space;
    assert Step(s, Some(c), prev, next) == OnA(s, Space, Some(c), prev, next);
  }

  /** A letter, or a digit after the first character, extends an A
      operand; any other character outside white space is rejected with
      the default error, a `/` too unless it is part of `//`. */
  lemma AAppendsOrRejects(s: AssemblerState, c: char, prev: Option<char>, next: Option<char>)
    requires s.currentInstruction.kind == A && !s.isFinished
    ensures IsAsciiLetter(c) || (IsDigit(c) && s.currentInstruction.value != "") ==>
      Step(s, Some(c), prev, next) == Success(AddToInstructionValue(s, Some(c)))
    ensures !(IsSpace(c) || IsDigit(c) || IsAsciiLetter(c) || (c == '/' && (next == Some('/') || prev == Some('/')))) ==>
      Step(s, Some(c), prev, next) == Failure(DefaultIllegal(s, Some(c)))
  {
    var cls := Classify(Some(c), false);
    assert Step(s, Some(c), prev, next) == OnA(s, cls, Some(c), prev, next);
    AHandlersAppendOrReject(s, cls, c, prev, next);
  }

  lemma AHandlersAppendOrReject(s: AssemblerState, cls: CharClass, c: char, prev: Option<char>, next: Option<char>)
    requires cls == Classify(Some(c), false)
    ensures IsAsciiLetter(c) || (IsDigit(c) && s.currentInstruction.value != "") ==>
      OnA(s, cls, Some(c), prev, next) == Success(AddToInstructionValue(s, Some(c)))
    ensures !(IsSpace(c) || IsDigit(c) || IsAsciiLetter(c) || (c == '/' && (next == Some('/') || prev == Some('/')))) ==>
      OnA(s, cls, Some(c), prev, next) == Failure(DefaultIllegal(s, Some(c)))
  {
    if cls == Slash {
      assert c == '/';
    }
  }

  /** Inside a label white space is ignored, a letter, or a digit after
      the first character, extends the name, and every character that is
      not white space, a digit, a letter, `/` or a paren is rejected with
      the default error. */
  lemma LabelAppendsOrRejects(s: AssemblerState, c: char, prev: Option<char>, next: Option<char>)
    requires s.currentInstruction.kind == Label && !s.isFinished
    ensures IsSpace(c) && c != '\n' ==> Step(s, Some(c), prev, next) == Success(s)
    ensures IsAsciiLetter(c) || (IsDigit(c) && s.currentInstruction.value != "") ==>
      Step(s, Some(c), prev, next) == Success(AddToInstructionValue(s, Some(c)))
    ensures !(IsSpace(c) || IsDigit(c) || IsAsciiLetter(c) || c in "/()") ==>
      Step(s, Some(c), prev, next) == Failure(DefaultIllegal(s, Some(c)))
  {
    var cls := Classify(Some(c), false);
    assert Step(s, Some(c), prev, next) == OnLabel(s, cls, Some(c));
    LabelHandlersAppendOrReject(s, cls, c);
  }

  lemma LabelHandlersAppendOrReject(s: AssemblerState, cls: CharClass, c: char)
    requires cls == Classify(Some(c), false)
    ensures IsSpace(c) && c != '\n' ==> OnLabel(s, cls, Some(c)) == Success(s)
    ensures IsAsciiLetter(c) || (IsDigit(c) && s.currentInstruction.value != "") ==>
      OnLabel(s, cls, Some(c)) == Success(AddToInstructionValue(s, Some(c)))
    ensures !(IsSpace(c) || IsDigit(c) || IsAsciiLetter(c) || c in "/()") ==>
      OnLabel(s, cls, Some(c)) == Failure(DefaultIllegal(s, Some(c)))
  {
    if cls == Slash {
      assert c == '/' && c in "/()";
    } else if cls == Paren {
      assert c in "/()";
    }
  }

  /** White space in a C instruction is ignored, and in a reachable state
      the end of the line always ends it: the text is a valid C text, so
      the check passes, nothing is emitted and the kind returns to
      `null`. */
  lemma CSpaceAndLineEnd(s: AssemblerState, ch: Option<char>, prev: Option<char>, next: Option<char>)
    requires Consistent(s) && s.currentInstruction.kind == C
    ensures Classify(ch, s.isFinished) == Space ==> Step(s, ch, prev, next) == Success(s)
    ensures Classify(ch, s.isFinished) == NewLine ==>
      Step(s, ch, prev, next) == Success(s.(currentInstruction := Blank(Null)))
  {
    var cls := Classify(ch, s.isFinished);
    assert Step(s, ch, prev, next) == OnC(s, cls, ch, prev, next);
    if cls == NewLine {
      var v := s.currentInstruction.value;
      assert v[0] in "ADM01";
      assert CreateCInstruction(s, v) == Success(s);
    }
  }

  /** The text of `throwIllegal`'s error starts with "Unexpected character"
      and the character's text, then the extra message in parentheses when
      there is one, then the cursor in parentheses. */
  lemma IllegalMessage(extra: string, s: AssemblerState, charText: string)
    ensures var m := Illegal(extra, s, charText).message;
      var head := "Error: " + "Unexpected character " + charText
        + (if extra == "" then "" else "(" + extra + ")") + " (line ";
      |head| <= |m| && m[..|head|] == head
  {
    var message := "Unexpected character " + charText + (if extra == "" then "" else "(" + extra + ")");
    var x := if extra == "" then "" else "(" + extra + ")";
    assert Illegal(extra, s, charText) == CreateError(message, s);
    HeaderPrefix(message, s);
    ConcatRegroup("Error: ", "Unexpected character ", charText, x, " (line ");
  }

  /** The error text of a message begins with "Error: ", the message and
      the opening of the cursor's parentheses. */
  lemma HeaderPrefix(message: string, s: AssemblerState)
    ensures var m := CreateError(message, s).message;
      var head := "Error: " + message + " (line ";
      |head| <= |m| && m[..|head|] == head
  {
    var head := "Error: " + message + " (line ";
    var rest := NatToString(s.line + 1) + " position " + NatToString(s.position) + ")";
    var tail := "\n" + SourceLine(s) + "\n" + CaretLine(s.position);
    assert ErrorHeader(message, s) == head + rest;
    assert CreateError(message, s).message == head + (rest + tail);
  }

  /** The default error names the character and adds nothing before the
      cursor; an undefined character reads `undefined`. */
  lemma DefaultIllegalMessage(s: AssemblerState, ch: Option<char>)
    ensures var m := DefaultIllegal(s, ch).message;
      var head := "Error: " + "Unexpected character " + (if ch.Some? then [ch.value] else "undefined") + " (line ";
      |head| <= |m| && m[..|head|] == head
  {
    IllegalMessage("", s, CharText(ch));
  }

  /** Between instructions, the end of a line, an undefined character and a
      finished cursor change nothing. */
  lemma NullLineEnd(s: AssemblerState, ch: Option<char>, prev: Option<char>, next: Option<char>)
    requires s.currentInstruction.kind == Null
    requires Classify(ch, s.isFinished) == NewLine
    ensures Step(s, ch, prev, next) == Success(s)
  {
    assert Step(s, ch, prev, next) == OnNull(s, NewLine, ch, prev, next);
  }

  /** In the C kind, `@`, parentheses, `*`, characters of no other class and
      letters that are not part of a C mnemonic get the default error; `+`
      and `-` reach the handler that does not parse. */
  lemma CRejectsOthers(s: AssemblerState, c: char, prev: Option<char>, next: Option<char>)
    requires s.currentInstruction.kind == C && !s.isFinished
    ensures c in "@()*" || Classify(Some(c), false) == Other || (IsAsciiLetter(c) && c !in "ADMJGETL") ==>
      Step(s, Some(c), prev, next) == Failure(DefaultIllegal(s, Some(c)))
    ensures c == '+' || c == '-' ==> Step(s, Some(c), prev, next) == Failure(OperatorHandlerMissing)
  {
    var cls := Classify(Some(c), false);
    assert Step(s, Some(c), prev, next) == OnC(s, cls, Some(c), prev, next);
  }

  /** An operand of digits without a redundant leading zero loads the
      number whose rendering is the operand itself. */
  lemma CanonicalOperand(s: AssemblerState, v: string)
    requires AllDigits(v)
    requires v[0] == '0' ==> |v| == 1
    ensures var r := CreateAInstruction(s, v);
      && NatToString(Last(r.result.instructions).value) == v
      && Last(r.result.instructions).metadata == NoMetadata
  {
    CanonicalDigitsRoundTrip(v);
  }

  /** Regrouping a concatenation of five texts. */
  lemma ConcatRegroup(a: string, b: string, c: string, d: string, e: string)
    ensures a + (b + c + d) + e == (a + b) + c + d + e
  {
  }
}

=== FILE: source_lines.dfy ===
/** Source normalisation shared by both assembler drivers
    (`splitSourceLines` in state.ts and assemble.ts): every `\r\n` and every
    lone `\r` becomes `\n`, and the text is split at `\n`. */
module SourceLines {

  /** `source.replace(/\r\n?/gm, "\n")`: the match is greedy, so a `\r`
      swallows the `\n` right after it. */
  function NormalizeLineEndings(s: string): (r: string)
    ensures '\r' !in r
    ensures '\r' !in s ==> r == s
    ensures |r| <= |s|
    decreases |s|
  {
    if |s| == 0 then ""
    else if s[0] == '\r' then
      "\n" + NormalizeLineEndings(if |s| > 1 && s[1] == '\n' then s[2..] else s[1..])
    else
      [s[0]] + NormalizeLineEndings(s[1..])
  }

  /** `text.split("\n")`: the pieces between the separators, so `n`
      separators give `n + 1` pieces and the empty text gives `[""]`. */
  function Split(t: string): (r: seq<string>)
    ensures |r| >= 1
    ensures forall i :: 0 <= i < |r| ==> '\n' !in r[i]
    ensures forall i, j :: 0 <= i < |r| && 0 <= j < |r[i]| ==> r[i][j] in t
  {
    if |t| == 0 then [""]
    else
      var rest := Split(t[1..]);
      if t[0] == '\n' then [""] + rest
      else [[t[0]] + rest[0]] + rest[1..]
  }

  /** `lines.join("\n")` */
  function Join(ls: seq<string>): string
    requires |ls| >= 1
  {
    if |ls| == 1 then ls[0] else ls[0] + "\n" + Join(ls[1..])
  }

  /** Joining the pieces again restores the text. */
  lemma {:induction false} JoinSplit(t: string)
    ensures Join(Split(t)) == t
  {
    if |t| > 0 {
      var rest := Split(t[1..]);
      JoinSplit(t[1..]);
      if t[0] == '\n' {
        assert Split(t) == [""] + rest;
        assert ([""] + rest)[1..] == rest;
      } else {
        var r := [[t[0]] + rest[0]] + rest[1..];
        assert Split(t) == r;
        if |rest| == 1 {
          assert Join(r) == [t[0]] + rest[0];
        } else {
          assert r[1..] == rest[1..];
          assert Join(rest) == rest[0] + "\n" + Join(rest[1..]);
        }
        assert t == [t[0]] + t[1..];
      }
    }
  }

  /** Splitting a join of separator-free lines gives those lines back. */
  lemma {:induction false} SplitJoin(ls: seq<string>)
    requires |ls| >= 1
    requires forall i :: 0 <= i < |ls| ==> '\n' !in ls[i]
    ensures Split(Join(ls)) == ls
  {
    if |ls| == 1 {
      SplitWithoutSeparator(ls[0]);
    } else {
      SplitJoin(ls[1..]);
      SplitAfterLine(ls[0], Join(ls[1..]));
    }
  }

  lemma {:induction false} SplitWithoutSeparator(t: string)
    requires '\n' !in t
    ensures Split(t) == [t]
  {
    if |t| > 0 {
      SplitWithoutSeparator(t[1..]);
      assert t == [t[0]] + t[1..];
    }
  }

  /** A separator-free line followed by `\n` contributes exactly one piece. */
  lemma {:induction false} SplitAfterLine(a: string, b: string)
    requires '\n' !in a
    ensures Split(a + "\n" + b) == [a] + Split(b)
    decreases |a|
  {
    if |a| == 0 {
      assert (a + "\n" + b)[1..] == b;
    } else {
      var t := a + "\n" + b;
      assert t[1..] == a[1..] + "\n" + b;
      SplitAfterLine(a[1..], b);
      assert [t[0]] + a[1..] == a;
    }
  }

  /** Splitting at a separator splits the two sides apart: the pieces of
      `x + "\n" + y` are the pieces of `x` followed by those of `y`. */
  lemma {:induction false} SplitAppend(x: string, y: string)
    ensures Split(x + "\n" + y) == Split(x) + Split(y)
  {
    var t := x + "\n" + y;
    if |x| == 0 {
      assert t[1..] == y;
    } else {
      assert t[0] == x[0] && t[1..] == x[1..] + "\n" + y;
      SplitAppend(x[1..], y);
      var p, q := Split(x[1..]), Split(y);
      assert Split(t[1..]) == p + q;
      if x[0] != '\n' {
        assert (p + q)[0] == p[0] && (p + q)[1..] == p[1..] + q;
      }
    }
  }

  /** A text ending in two lines without breaks splits into the pieces of
      its head followed by those two lines. */
  lemma SplitThree(h: string, x: string, y: string)
    requires '\n' !in x && '\n' !in y
    ensures Split(h + "\n" + x + "\n" + y) == Split(h) + [x, y]
  {
    assert h + "\n" + x + "\n" + y == h + "\n" + (x + "\n" + y);
    SplitAppend(h, x + "\n" + y);
    SplitAppend(x, y);
    SplitWithoutSeparator(x);
    SplitWithoutSeparator(y);
  }

  /** `splitSourceLines`: at least one line, no line keeps a line-break
      character, and the lines joined with `\n` give the normalised text. */
  function SplitSourceLines(source: string): (lines: seq<string>)
    ensures |lines| >= 1
    ensures forall i :: 0 <= i < |lines| ==> '\n' !in lines[i] && '\r' !in lines[i]
    ensures Join(lines) == NormalizeLineEndings(source)
  {
    var t := NormalizeLineEndings(source);
    JoinSplit(t);
    Split(t)
  }

  /** Lines with no break characters are exactly what splitting their join
      gives, so `splitSourceLines` loses nothing but the line endings. */
  lemma SplitSourceLinesOfJoin(ls: seq<string>)
    requires |ls| >= 1
    requires forall i :: 0 <= i < |ls| ==> '\n' !in ls[i] && '\r' !in ls[i]
    ensures SplitSourceLines(Join(ls)) == ls
  {
    JoinWithoutCarriageReturn(ls);
    SplitJoin(ls);
  }

  lemma {:induction false} JoinWithoutCarriageReturn(ls: seq<string>)
    requires |ls| >= 1
    requires forall i :: 0 <= i < |ls| ==> '\r' !in ls[i]
    ensures '\r' !in Join(ls)
  {
    if |ls| > 1 {
      JoinWithoutCarriageReturn(ls[1..]);
    }
  }
}

=== FILE: state.dfy ===
/** The assembler state of state.ts: the symbol table with its built-in
    seed, the instruction list, the in-progress assembly instruction, the
    cursor, and the position-annotated error message. */
module AsmState {
  import opened Text
  import opened SourceLines

  /** `AsmSymbol`; a label stored without `builtIn` reads as `false`. */
  datatype Symbol = Symbol(address: nat, builtIn: bool)

  /** `Instruction.kind`, the Hack machine-instruction kind. */
  datatype MachineKind = MachineA | MachineC

  /** `Instruction.metadata`: `{}` or `{symbol, initial}`. */
  datatype Metadata = NoMetadata | SymbolMetadata(symbol: string, initial: bool)

  datatype Instruction = Instruction(kind: MachineKind, value: int, metadata: Metadata)

  datatype AssemblerResult = AssemblerResult(symbols: map<string, Symbol>, instructions: seq<Instruction>)

  /** `AssemblyInstructionKind`: what the character machine is in the middle of. */
  datatype Kind = Null | NullAwaitingNewLine | Comment | MultilineComment | A | Label | C

  /** `AssemblyInstruction`: the kind and the text gathered so far. */
  datatype AssemblyInstruction = AssemblyInstruction(kind: Kind, value: string)

  datatype AssemblerState = AssemblerState(
    lines: seq<string>,
    line: nat,
    position: nat,
    result: AssemblerResult,
    currentInstruction: AssemblyInstruction,
    previousInstruction: AssemblyInstruction,
    nextSymbolAddress: nat,
    isFinished: bool)

  /** A thrown JavaScript `Error`, or the call of the C-state `+`/`-`
      handler, whose source text does not parse. */
  datatype AsmError = Thrown(message: string) | OperatorHandlerMissing

  /** The address the variable allocator hands out first. */
  const FirstVariableAddress: nat := 16

  /** The register names `R0` .. `R15`. */
  function RegisterName(i: nat): string {
    "R" + NatToString(i)
  }

  /** The built-in symbols in the order state.ts lists them: the sixteen
      registers, the two memory-mapped devices and the five virtual-machine
      segment pointers. */
  const BuiltInTable: seq<(string, nat)> := [
    ("R0", 0), ("R1", 1), ("R2", 2), ("R3", 3), ("R4", 4), ("R5", 5), ("R6", 6), ("R7", 7),
    ("R8", 8), ("R9", 9), ("R10", 10), ("R11", 11), ("R12", 12), ("R13", 13), ("R14", 14),
    ("R15", 15), ("SCREEN", 16384), ("KBD", 24576),
    ("SP", 0), ("LCL", 1), ("ARG", 2), ("THIS", 3), ("THAT", 4)]

  /** A symbol table holding each entry of `es` as a built-in symbol. */
  function BuiltInsFrom(es: seq<(string, nat)>): (m: map<string, Symbol>)
    ensures m.Keys == set i | 0 <= i < |es| :: es[i].0
    ensures forall name :: name in m ==> m[name].builtIn
  {
    if es == [] then map[]
    else BuiltInsFrom(es[..|es| - 1])[es[|es| - 1].0 := Symbol(es[|es| - 1].1, true)]
  }

  predicate DistinctNames(es: seq<(string, nat)>) {
    forall i, j :: 0 <= i < j < |es| ==> es[i].0 != es[j].0
  }

  /** With distinct names no entry is overwritten: one symbol per entry. */
  lemma {:induction false} BuiltInsFromSize(es: seq<(string, nat)>)
    requires DistinctNames(es)
    ensures |BuiltInsFrom(es)| == |es|
  {
    if es != [] {
      var p := es[..|es| - 1];
      assert DistinctNames(p);
      BuiltInsFromSize(p);
      assert es[|es| - 1].0 !in BuiltInsFrom(p);
    }
  }

  /** With distinct names every entry's symbol sits at the entry's address. */
  lemma {:induction false} BuiltInsFromLookup(es: seq<(string, nat)>, i: nat)
    requires DistinctNames(es)
    requires i < |es|
    ensures BuiltInsFrom(es)[es[i].0] == Symbol(es[i].1, true)
  {
    if i < |es| - 1 {
      var p := es[..|es| - 1];
      assert DistinctNames(p);
      BuiltInsFromLookup(p, i);
      assert p[i] == es[i];
    }
  }

  /** `createInitialState`'s symbol seed: exactly 23 symbols, all
      built-in; `R0`..`R15` at 0..15, `SCREEN` at 16384, `KBD` at 24576, and
      `SP`, `LCL`, `ARG`, `THIS`, `THAT` at 0..4; apart from the two devices
      every address lies below the first variable address. */
  function BuiltInSymbols(): (m: map<string, Symbol>)
    ensures |m| == 23
    ensures forall name :: name in m ==> m[name].builtIn
    ensures forall i: nat :: i < 16 ==> RegisterName(i) in m && m[RegisterName(i)].address == i
    ensures "SCREEN" in m && m["SCREEN"].address == 16384
    ensures "KBD" in m && m["KBD"].address == 24576
    ensures "SP" in m && m["SP"].address == 0
    ensures "LCL" in m && m["LCL"].address == 1
    ensures "ARG" in m && m["ARG"].address == 2
    ensures "THIS" in m && m["THIS"].address == 3
    ensures "THAT" in m && m["THAT"].address == 4
    ensures forall name :: name in m && name != "SCREEN" && name != "KBD" ==>
      m[name].address < FirstVariableAddress
  {
    var m := BuiltInsFrom(BuiltInTable);
    SeedSize();
    SeedRegisters();
    SeedNamed();
    SeedLowAddresses();
    m
  }

  lemma SeedNamed()
    ensures var m := BuiltInsFrom(BuiltInTable);
      && "SCREEN" in m && m["SCREEN"].address == 16384
      && "KBD" in m && m["KBD"].address == 24576
      && "SP" in m && m["SP"].address == 0
      && "LCL" in m && m["LCL"].address == 1
      && "ARG" in m && m["ARG"].address == 2
      && "THIS" in m && m["THIS"].address == 3
      && "THAT" in m && m["THAT"].address == 4
  {
    SeedEntry(16, "SCREEN", 16384);
    SeedEntry(17, "KBD", 24576);
    SeedEntry(18, "SP", 0);
    SeedEntry(19, "LCL", 1);
    SeedEntry(20, "ARG", 2);
    SeedEntry(21, "THIS", 3);
    SeedEntry(22, "THAT", 4);
  }

  lemma SeedSize()
    ensures |BuiltInsFrom(BuiltInTable)| == 23
  {
    TableNamesDistinct();
    BuiltInsFromSize(BuiltInTable);
  }

  /** The entry at index `i` of the table is in the seed at its address. */
  lemma SeedEntry(i: nat, name: string, address: nat)
    requires i < |BuiltInTable| && BuiltInTable[i] == (name, address)
    ensures name in BuiltInsFrom(BuiltInTable)
    ensures BuiltInsFrom(BuiltInTable)[name] == Symbol(address, true)
  {
    TableNamesDistinct();
    BuiltInsFromLookup(BuiltInTable, i);
  }

  lemma SeedRegisters()
    ensures forall i: nat :: i < 16 ==>
      && RegisterName(i) in BuiltInsFrom(BuiltInTable)
      && BuiltInsFrom(BuiltInTable)[RegisterName(i)].address == i
  {
    TableRegisters();
    forall i: nat | i < 16
      ensures RegisterName(i) in BuiltInsFrom(BuiltInTable)
      ensures BuiltInsFrom(BuiltInTable)[RegisterName(i)].address == i
    {
      SeedEntry(i, RegisterName(i), i);
    }
  }

  lemma SeedLowAddresses()
    ensures var m := BuiltInsFrom(BuiltInTable);
      forall name :: name in m && name != "SCREEN" && name != "KBD" ==>
        m[name].address < FirstVariableAddress
  {
    TableLowAddresses();
    var exempt := {"SCREEN", "KBD"};
    forall i | 0 <= i < |BuiltInTable| && BuiltInTable[i].0 !in exempt
      ensures BuiltInTable[i].1 < FirstVariableAddress
    {
      assert BuiltInTable[16].0 == "SCREEN" && BuiltInTable[17].0 == "KBD";
    }
    AddressesBelow(BuiltInTable, exempt, FirstVariableAddress);
  }

  /** Each symbol of `BuiltInsFrom(es)` carries the address of some entry
      of its name, so a bound on the entries bounds the symbols. */
  lemma {:induction false} AddressesBelow(es: seq<(string, nat)>, exempt: set<string>, bound: nat)
    requires forall i :: 0 <= i < |es| && es[i].0 !in exempt ==> es[i].1 < bound
    ensures var m := BuiltInsFrom(es);
      forall name :: name in m && name !in exempt ==> m[name].address < bound
  {
    if es != [] {
      var p := es[..|es| - 1];
      assert forall i :: 0 <= i < |p| ==> p[i] == es[i];
      AddressesBelow(p, exempt, bound);
    }
  }

  /** The registers are told apart by their numbers, and no other entry
      starts with `R`. */
  lemma TableNamesDistinct()
    ensures DistinctNames(BuiltInTable)
  {
    var regs, rest := BuiltInTable[..16], BuiltInTable[16..];
    assert BuiltInTable == regs + rest;
    TableRegisters();
    forall i, j | 0 <= i < j < |regs|
      ensures regs[i].0 != regs[j].0
    {
      RegisterNameInjective(i, j);
    }
    assert DistinctNames(rest);
    forall i, j | 0 <= i < |regs| && 0 <= j < |rest|
      ensures regs[i].0 != rest[j].0
    {
      assert regs[i].0[0] == 'R';
    }
    DistinctNamesAppend(regs, rest);
  }

  lemma RegisterNameInjective(i: nat, j: nat)
    requires i != j
    ensures RegisterName(i) != RegisterName(j)
  {
    assert RegisterName(i)[1..] == NatToString(i);
    assert RegisterName(j)[1..] == NatToString(j);
    DecimalRoundTrip(i);
    DecimalRoundTrip(j);
  }

  lemma DistinctNamesAppend(a: seq<(string, nat)>, b: seq<(string, nat)>)
    requires DistinctNames(a) && DistinctNames(b)
    requires forall i, j :: 0 <= i < |a| && 0 <= j < |b| ==> a[i].0 != b[j].0
    ensures DistinctNames(a + b)
  {
    var c := a + b;
    forall i, j | 0 <= i < j < |c|
      ensures c[i].0 != c[j].0
    {
      if j < |a| {
        assert c[i] == a[i] && c[j] == a[j];
      } else if i < |a| {
        assert c[i] == a[i] && c[j] == b[j - |a|];
      } else {
        assert c[i] == b[i - |a|] && c[j] == b[j - |a|];
      }
    }
  }

  /** The table's first sixteen entries are the registers. */
  lemma TableRegisters()
    ensures forall i: nat :: i < 16 ==> BuiltInTable[i] == (RegisterName(i), i)
  {
    RegisterNames();
  }

  /** Only the two devices sit at or above the first variable address. */
  lemma TableLowAddresses()
    ensures forall i :: 0 <= i < |BuiltInTable| && i != 16 && i != 17 ==>
      BuiltInTable[i].1 < FirstVariableAddress
  {
  }

  /** The rendered register names are the ones spelled out in the table. */
  lemma RegisterNames()
    ensures RegisterName(0) == "R0" && RegisterName(1) == "R1" && RegisterName(2) == "R2"
    ensures RegisterName(3) == "R3" && RegisterName(4) == "R4" && RegisterName(5) == "R5"
    ensures RegisterName(6) == "R6" && RegisterName(7) == "R7" && RegisterName(8) == "R8"
    ensures RegisterName(9) == "R9" && RegisterName(10) == "R10" && RegisterName(11) == "R11"
    ensures RegisterName(12) == "R12" && RegisterName(13) == "R13"
    ensures RegisterName(14) == "R14" && RegisterName(15) == "R15"
  {
  }

  /** The empty in-progress instruction of the given kind. */
  function Blank(kind: Kind): AssemblyInstruction {
    AssemblyInstruction(kind, "")
  }

  /** `createInitialState`: the source split into lines, the cursor at the
      first character of the first line, nothing emitted, only the
      built-in symbols known, and the allocator at 16. */
  function CreateInitialState(source: string): (s: AssemblerState)
    ensures s.lines == SplitSourceLines(source) && |s.lines| >= 1
    ensures s.line == 0 && s.position == 0 && !s.isFinished
    ensures s.result.instructions == []
    ensures s.result.symbols == BuiltInSymbols()
    ensures s.nextSymbolAddress == FirstVariableAddress
    ensures s.currentInstruction == AssemblyInstruction(Null, "")
    ensures s.previousInstruction == AssemblyInstruction(Null, "")
  {
    AssemblerState(
      SplitSourceLines(source), 0, 0,
      AssemblerResult(BuiltInSymbols(), []),
      Blank(Null), Blank(Null),
      FirstVariableAddress, false)
  }

  /** `state.lines[state.line]` as a template literal prints it. */
  function LineText(s: AssemblerState): string {
    if s.line < |s.lines| then s.lines[s.line] else "undefined"
  }

  const SourceLabel := "Source: "

  /** The second line of an error: the label, then the source line. */
  function SourceLine(s: AssemblerState): string {
    SourceLabel + LineText(s)
  }

  /** `createError`: the error thrown for `message` at the state's cursor.
      Its text ends with a caret line whose caret is indented by the width
      of the `Source: ` label plus the cursor position. */
  function CreateError(message: string, s: AssemblerState): (e: AsmError)
    ensures e.Thrown?
    ensures |e.message| >= |SourceLabel| + s.position + 2
    ensures e.message[|e.message| - 1] == '^'
    ensures e.message[|e.message| - |SourceLabel| - s.position - 2] == '\n'
    ensures forall k :: |e.message| - |SourceLabel| - s.position - 1 <= k < |e.message| - 1 ==>
      e.message[k] == ' '
  {
    Thrown(ErrorHeader(message, s) + "\n" + SourceLine(s) + "\n" + CaretLine(s.position))
  }

  /** The header line of an error message. */
  function ErrorHeader(message: string, s: AssemblerState): string {
    "Error: " + message
    + " (line " + NatToString(s.line + 1) + " position " + NatToString(s.position) + ")"
  }

  /** The lines `ls` of an error raised with `header` at `position` of
      the source line `line`: from the end, the `Source: ` label with the
      line, then a caret under the offending character; everything before
      those two lines is the header. */
  predicate ErrorLayout(ls: seq<string>, header: string, line: string, position: nat) {
    && |ls| >= 3
    && ls[..|ls| - 2] == Split(header)
    && Join(ls[..|ls| - 2]) == header
    && ls[|ls| - 2] == SourceLabel + line
    && |ls[|ls| - 1]| == |SourceLabel| + position + 1
    && ls[|ls| - 1][|SourceLabel| + position] == '^'
    && (position < |line| ==> ls[|ls| - 2][|SourceLabel| + position] == line[position])
  }

  /** Every error message has that layout, with the one-based line and
      zero-based position in its header. A message without a line break
      makes the header a single line, so the text has three lines. */
  lemma CreateErrorLayout(message: string, s: AssemblerState)
    requires s.line < |s.lines| && '\n' !in s.lines[s.line]
    ensures var ls := Split(CreateError(message, s).message);
      && ErrorLayout(ls, ErrorHeader(message, s), s.lines[s.line], s.position)
      && ('\n' !in message ==> |ls| == 3 && ls[0] == ErrorHeader(message, s))
  {
    var h := ErrorHeader(message, s);
    var src := SourceLabel + s.lines[s.line];
    ErrorTextSplit(message, s);
    LastTwo(Split(h), src, CaretLine(s.position));
    JoinSplit(h);
    if '\n' !in message {
      HeaderWithoutBreak(message, s);
    }
    if s.position < |s.lines[s.line]| {
      assert src[|SourceLabel| + s.position] == s.lines[s.line][s.position];
    }
  }

  lemma LastTwo<T>(p: seq<T>, a: T, b: T)
    ensures var ls := p + [a, b];
      |ls| == |p| + 2 && ls[..|ls| - 2] == p && ls[|ls| - 2] == a && ls[|ls| - 1] == b
  {
    var ls := p + [a, b];
    assert ls[..|ls| - 2] == p;
  }

  /** The caret line: the caret under position `position` of the source
      line that follows the `Source: ` label. */
  function CaretLine(position: nat): (r: string)
    ensures |r| == |SourceLabel| + position + 1
    ensures r[|SourceLabel| + position] == '^'
    ensures forall k :: 0 <= k < |r| - 1 ==> r[k] == ' '
  {
    Spaces(|SourceLabel|) + Spaces(position) + "^"
  }

  lemma ErrorTextSplit(message: string, s: AssemblerState)
    requires s.line < |s.lines| && '\n' !in s.lines[s.line]
    ensures Split(CreateError(message, s).message)
      == Split(ErrorHeader(message, s)) + [SourceLabel + s.lines[s.line], CaretLine(s.position)]
  {
    var caret := CaretLine(s.position);
    assert '\n' !in SourceLabel;
    assert '\n' !in caret by {
      forall k | 0 <= k < |caret|
        ensures caret[k] != '\n'
      {
        if k < |caret| - 1 {
          assert caret[k] == ' ';
        }
      }
    }
    SplitThree(ErrorHeader(message, s), SourceLine(s), caret);
  }

  lemma HeaderWithoutBreak(message: string, s: AssemblerState)
    requires '\n' !in message
    ensures Split(ErrorHeader(message, s)) == [ErrorHeader(message, s)]
  {
    NumberHasNoBreak(s.line + 1);
    NumberHasNoBreak(s.position);
    SplitWithoutSeparator(ErrorHeader(message, s));
  }

  lemma NumberHasNoBreak(n: nat)
    ensures '\n' !in NatToString(n)
  {
    var r := NatToString(n);
    assert forall i :: 0 <= i < |r| ==> IsDigit(r[i]);
  }
}

=== FILE: text.dfy ===
/** Character classes and small string operations the assembler borrows from
    JavaScript: the regular-expression classes `\s`, `\d` and `[a-zA-Z]`,
    decimal rendering of numbers in messages, `parseInt(s, 10)` on digit
    strings, `" ".repeat(n)` and `String.prototype.trim`. */
module Text {

  /** JavaScript's `\s`: the white-space and line-terminator characters of
      the Basic Multilingual Plane, which is also the set `trim` strips. */
  predicate IsSpace(c: char) {
    || c == '\t' || c == '\n' || c == '\U{000B}' || c == '\U{000C}' || c == '\r'
    || c == ' ' || c == '\U{00A0}' || c == '\U{1680}'
    || ('\U{2000}' <= c <= '\U{200A}')
    || c == '\U{2028}' || c == '\U{2029}' || c == '\U{202F}' || c == '\U{205F}'
    || c == '\U{3000}' || c == '\U{FEFF}'
  }

  /** JavaScript's `\d` without the `u` flag: ASCII digits only. */
  predicate IsDigit(c: char) {
    '0' <= c <= '9'
  }

  /** The class `[a-zA-Z]`. */
  predicate IsAsciiLetter(c: char) {
    'a' <= c <= 'z' || 'A' <= c <= 'Z'
  }

  /** The regular expression `^\d+$`. */
  predicate AllDigits(s: string) {
    |s| > 0 && forall i :: 0 <= i < |s| ==> IsDigit(s[i])
  }

  function DigitChar(d: nat): (c: char)
    requires d < 10
    ensures IsDigit(c)
  {
    (('0' as int) + d) as char
  }

  function DigitOf(c: char): (d: nat)
    requires IsDigit(c)
    ensures d < 10
    ensures DigitChar(d) == c
  {
    (c as int) - ('0' as int)
  }

  /** Decimal rendering of a natural number, as a template literal prints it. */
  function NatToString(n: nat): (r: string)
    ensures AllDigits(r)
    ensures r[0] == '0' ==> n == 0
  {
    if n < 10 then [DigitChar(n)] else NatToString(n / 10) + [DigitChar(n % 10)]
  }

  /** The value `parseInt(s, 10)` gives for a string of decimal digits. */
  function DigitsValue(s: string): nat
    requires forall i :: 0 <= i < |s| ==> IsDigit(s[i])
  {
    if |s| == 0 then 0 else 10 * DigitsValue(s[..|s| - 1]) + DigitOf(s[|s| - 1])
  }

  /** Reading back a rendered number gives the number. */
  lemma {:induction false} DecimalRoundTrip(n: nat)
    ensures DigitsValue(NatToString(n)) == n
  {
    if n >= 10 {
      var p := NatToString(n / 10);
      DecimalRoundTrip(n / 10);
      assert (p + [DigitChar(n % 10)])[..|p|] == p;
    }
  }

  /** A digit string without a superfluous leading zero is the rendering of
      its own value. */
  lemma {:induction false} CanonicalDigitsRoundTrip(s: string)
    requires AllDigits(s)
    requires s[0] == '0' ==> |s| == 1
    ensures NatToString(DigitsValue(s)) == s
  {
    var p := s[..|s| - 1];
    var d := DigitOf(s[|s| - 1]);
    if |p| > 0 {
      LeadingDigitBound(p);
      CanonicalDigitsRoundTrip(p);
      var v := DigitsValue(s);
      assert v == 10 * DigitsValue(p) + d;
      assert v / 10 == DigitsValue(p) && v % 10 == d;
      assert s == p + [s[|s| - 1]];
    }
  }

  lemma {:induction false} LeadingDigitBound(s: string)
    requires AllDigits(s)
    ensures DigitsValue(s) >= DigitOf(s[0])
  {
    if |s| > 1 {
      LeadingDigitBound(s[..|s| - 1]);
    }
  }

  /** `" ".repeat(n)` */
  function Spaces(n: nat): (r: string)
    ensures |r| == n
    ensures forall i :: 0 <= i < n ==> r[i] == ' '
  {
    seq(n, _ => ' ')
  }

  /** Index of the first non-space character at or after `i`. */
  function SkipSpaces(s: string, i: nat): (j: nat)
    requires i <= |s|
    ensures i <= j <= |s|
    ensures forall k :: i <= k < j ==> IsSpace(s[k])
    ensures j < |s| ==> !IsSpace(s[j])
    decreases |s| - i
  {
    if i < |s| && IsSpace(s[i]) then SkipSpaces(s, i + 1) else i
  }

  /** End of the text before a trailing run of spaces ending at `j`. */
  function SkipSpacesBack(s: string, j: nat): (e: nat)
    requires j <= |s|
    ensures e <= j
    ensures forall k :: e <= k < j ==> IsSpace(s[k])
    ensures e > 0 ==> !IsSpace(s[e - 1])
  {
    if j > 0 && IsSpace(s[j - 1]) then SkipSpacesBack(s, j - 1) else j
  }

  /** `String.prototype.trim`: the result is the slice of `s` left after
      removing every leading and every trailing space, and no more. */
  function Trim(s: string): (r: string)
    ensures exists i, j ::
      && 0 <= i <= j <= |s| && r == s[i..j]
      && (forall k :: 0 <= k < i ==> IsSpace(s[k]))
      && (forall k :: j <= k < |s| ==> IsSpace(s[k]))
    ensures r != [] ==> !IsSpace(r[0]) && !IsSpace(r[|r| - 1])
  {
    var i := SkipSpaces(s, 0);
    var j := SkipSpacesBack(s, |s|);
    if j <= i then
      assert i == |s|;
      assert s[0..0] == [];
      []
    else
      s[i..j]
  }

  /** Trimming leaves text without spaces untouched. */
  lemma TrimWithoutSpaces(s: string)
    requires forall k :: 0 <= k < |s| ==> !IsSpace(s[k])
    ensures Trim(s) == s
  {
    var i := SkipSpaces(s, 0);
    var j := SkipSpacesBack(s, |s|);
    assert i == 0;
    assert j == |s|;
    if |s| == 0 {
    } else {
      assert s[0..|s|] == s;
    }
  }
}

=== FILE: wrappers.dfy ===
/** Failure-compatible wrappers used throughout the model: a JavaScript
    `undefined` becomes `None`, and a thrown error becomes `Failure`. */
module Wrappers {

  datatype Option<+T> = None | Some(value: T)

  /** Either the value an operation returns or the error it throws. */
  datatype Result<+R, +E> = Success(value: R) | Failure(error: E) {

    predicate IsFailure() {
      Failure?
    }

    function PropagateFailure<U>(): Result<U, E>
      requires Failure?
    {
      Failure(error)
    }

    function Extract(): R
      requires Success?
    {
      value
    }
  }
}
